=== FILE: README.md ===
# MI PANA APP ride pricing, as a Dafny model

This project models the computational core of the MI PANA APP MCP server.
The server is a ride-hailing back end that offers tools to search drivers,
quote fares, measure trips and aggregate driver statistics. The model covers:

- **`FareCalculator`** (src/utils/fare-calculator.js) is the fare engine:
  - configuration defaulting with JavaScript's truthy `||` chains;
  - the pricing pipeline (base + distance + time, fuel surcharge, surge,
    minimum-fare floor, rounding to cents);
  - the itemised breakdown;
  - the one-hour exchange-rate cache in front of the DolarAPI request;
  - the platform-commission split.
- **Kinematics** (src/utils/distance.js): the haversine distance rounded to
  two decimals, and the ETA at 20 km/h rounded up to a whole minute.
- **The HTTP endpoint** (api/mcp.js):
  - its inline copies of the two helpers;
  - its synchronous fare calculator, which has no cache and a fixed dollar
    rate;
  - its `tools/call` dispatch.
- **The stdio server's handler logic** (src/index.js):
  - the driver proximity filter and sort;
  - the `calcular_tarifa` duration default;
  - the `calcular_distancia` handler;
  - the driver-statistics handler and its aggregation.

Modelling choices:

- JavaScript numbers are Dafny `real`s.
- `parseFloat(x.toFixed(2))` is one function, `Numbers.Round2`. It rounds
  the exact value to the nearest hundredth, with ties away from zero.
- A value that may be `undefined` is an `Option`. Truthiness of a number is
  "present and non-zero" (`Numbers.Truthy`).
- `Math.sin`, `Math.cos`, `Math.sqrt` and `Math.atan2` are fields of a
  `Kinematics.Trig` value passed in by the caller. The lemmas that need
  facts about them require exactly those facts:
  - oddness of `sin` (`SinOdd`);
  - the values at 0 and 1 (`AnchoredAtZero`).
- The rate cache is an explicit state `RateCache(rate, time)`. It is threaded
  through `GetUsdRate` and `Calculate` together with the clock reading `now`
  and the outcome of the request, `FetchOutcome`.
- The Supabase store is replaced by what its queries return: an error, or
  rows that may be `null`. A driver row's coordinate columns may each be
  `null`, which the distance arithmetic reads as 0.

Modules, one per file:

| file | module | models |
|---|---|---|
| wrappers.dfy | `Wrappers` | `Option` |
| numbers.dfy | `Numbers` | truthiness, `toFixed(2)` rounding, `Math.ceil`, `Math.max` |
| distance.dfy | `Kinematics` | src/utils/distance.js |
| fare_calculator.dfy | `FareCalculator` | src/utils/fare-calculator.js |
| tool_logic.dfy | `ToolLogic` | the driver search and the duration default, which each server writes out on its own |
| stdio_server.dfy | `StdioServer` | the modelled handlers of src/index.js |
| mcp_endpoint.dfy | `McpEndpoint` | api/mcp.js |

The two servers each carry their own copy of the driver search
(src/index.js:252-263, api/mcp.js:177-188) and of the duration default
(src/index.js:341, api/mcp.js:202). The copies in api/mcp.js call that
file's inline `calculateDistance` and `calculateETA`. Both are stated once,
in `ToolLogic`, over the utilities of src/utils/distance.js. This is exact,
because `McpEndpoint.InlineDistanceMatchesUtility` and
`McpEndpoint.InlineEtaMatchesUtility` prove the inline helpers equal to the
utilities for every input.

The commission split computes the driver's earnings from the *unrounded*
commission and rounds the two parts separately
(src/utils/fare-calculator.js:104-110). The two rounded parts can
therefore add up to a cent more or less than the fare: a 0.90 fare at the
default rate splits into 0.14 + 0.77 = 0.91
(`FareCalculator.CommissionCanOvershootByACent`).

## Model

| member | source | states |
|---|---|---|
| Numbers.Or | src/utils/fare-calculator.js:6 | `a \|\| b` on numbers: the first operand when it is present and non-zero, otherwise the second |
| Numbers.OrZero | src/index.js:431-434 | `v.field \|\| 0`: a missing column reads as 0 and a present one as itself |
| Numbers.Round2 | src/utils/fare-calculator.js:74 | `parseFloat(x.toFixed(2))` has at most two decimals, is within half a cent of `x`, and does not change the sign of a non-negative or non-positive value |
| Numbers.Round2Fixed | src/utils/fare-calculator.js:74 | a value that already has two decimals is returned unchanged |
| Numbers.Round2TieAwayFromZero | src/utils/fare-calculator.js:74 | an exact half cent rounds away from zero: k + ½ hundredths becomes k + 1 for k ≥ 0, and k − ½ becomes k − 1 for k ≤ 0 |
| Numbers.Round2Monotone | src/utils/fare-calculator.js:74 | rounding to cents preserves order |
| Numbers.Round2Between | src/utils/fare-calculator.js:71-74 | a value between two whole-cent bounds still lies between them after rounding |
| Numbers.Ceil | src/utils/distance.js:38 | `Math.ceil`: the least integer not below `x` |
| Numbers.Max | src/utils/fare-calculator.js:71 | `Math.max` is an upper bound of both arguments and equals one of them |
| Kinematics.ToRad | src/utils/distance.js:25-27 | `toRad` keeps the sign of the angle, and maps only 0 to 0 |
| Kinematics.ToRadOdd | src/utils/distance.js:25-27 | `toRad(-x) = -toRad(x)`, the fact behind the symmetry of the distance |
| Kinematics.Distance | src/utils/distance.js:9-23 | `calculateDistance` has two decimals and is within half a cent of `6371 * c` for the haversine `c` of the two points |
| Kinematics.HalfChordSymmetric | src/utils/distance.js:11-17 | with an odd `sin`, the haversine `a` does not change when the points are swapped |
| Kinematics.DistanceSymmetric | src/utils/distance.js:9-22 | with an odd `sin`, the distance from p to q equals the distance from q to p |
| Kinematics.DistanceToSelfIsZero | src/utils/distance.js:11-22 | with `sin 0 = 0`, `sqrt 0 = 0`, `sqrt 1 = 1` and `atan2(0, 1) = 0`, a point is at distance 0 from itself |
| Kinematics.Eta | src/utils/distance.js:34-40 | `calculateETA(d)` is the least whole number of minutes covering `d` km at 20 km/h: `3d <= n < 3d + 1` |
| Kinematics.EtaMonotone | src/utils/distance.js:34-40 | a longer distance never gets a shorter ETA |
| Kinematics.EtaZero | src/utils/distance.js:34-40 | a zero distance takes zero minutes |
| Kinematics.EtaNonNegative | src/utils/distance.js:37-40 | a non-negative distance never gets a negative ETA |
| Kinematics.EtaRoundsPartialMinuteUp | src/utils/distance.js:38 | 3.33 km takes 9.99 minutes, reported as 10 |
| FareCalculator.Setting | src/utils/fare-calculator.js:6-11 | one constructor setting is the configured value if truthy, else the environment value if truthy, else the literal default, and is never 0 |
| FareCalculator.Resolve | src/utils/fare-calculator.js:5-11 | each of the six settings is, independently, the configured value if truthy, else the environment value if truthy, else its literal default; none is 0 |
| FareCalculator.DefaultConfiguration | src/utils/fare-calculator.js:6-11 | with no configuration and no environment the engine uses 3 / 2 / 0.5 / 5 / 0.50 / 45 |
| FareCalculator.ConfiguredZeroIsIgnored | src/utils/fare-calculator.js:9 | a configured minimum fare of 0 counts as missing: the environment value or 5 is used instead |
| FareCalculator.RawFare | src/utils/fare-calculator.js:57-60 | base + distance × per-km + duration × per-minute; with non-negative rates and quantities, never below the base fare |
| FareCalculator.FuelExtra | src/utils/fare-calculator.js:62-65 | the surcharge added to the total is never negative, and is positive exactly when it is requested and the fuel price is above 0.50 |
| FareCalculator.SurgedFare | src/utils/fare-calculator.js:57-68 | the raw fare plus the fuel surcharge, times the surge; its orderings are the `SurgedFareMonotoneIn…` lemmas, and `SyncSurgedMatchesEngine` ties it to the endpoint's own text |
| FareCalculator.AmountBs | src/utils/fare-calculator.js:57-74 | `amount_bs` has two decimals and is within half a cent of the larger of the surged fare and the minimum fare; so it is never below a whole-cent minimum fare (nor more than half a cent below any minimum fare), and is within half a cent of the surged fare when the floor does not apply |
| FareCalculator.FloorAppliedAfterSurge | src/utils/fare-calculator.js:67-74 | when the surged fare is at or below a whole-cent minimum, the amount is exactly the minimum, whatever the surge |
| FareCalculator.AmountMonotoneInSurge | src/utils/fare-calculator.js:67-74 | with a non-negative raw fare, a higher surge never lowers the amount |
| FareCalculator.SurgedFareMonotoneInSurge | src/utils/fare-calculator.js:67 | with a non-negative raw fare, a higher surge never lowers the surged fare |
| FareCalculator.AmountMonotoneInDistance | src/utils/fare-calculator.js:57-74 | with a non-negative per-km rate and surge, a longer trip never costs less |
| FareCalculator.SurgedFareMonotoneInDistance | src/utils/fare-calculator.js:57-67 | with a non-negative per-km rate and surge, a longer trip never has a lower surged fare |
| FareCalculator.SurgedAmountMonotone | src/utils/fare-calculator.js:71-74 | the floor and the rounding preserve the order of two surged fares |
| FareCalculator.FuelLine | src/utils/fare-calculator.js:84 | the breakdown's fuel line is 0 when not requested; when requested it is the rounded `(fuelPrice - 0.50) * 10`, with no threshold, so it is non-positive below the reference price |
| FareCalculator.Charge | src/utils/fare-calculator.js:81-82 | an itemised charge has two decimals and is within half a cent of quantity times unit price |
| FareCalculator.MakeBreakdown | src/utils/fare-calculator.js:76-86 | the breakdown carries the base fare and surge as given, and distance and time charges within half a cent of the unsurged products |
| FareCalculator.BreakdownIgnoresSurgeAndFloor | src/utils/fare-calculator.js:76-86 | apart from echoing the multiplier, the breakdown does not depend on the surge or on the minimum fare |
| FareCalculator.FuelLineWithoutThreshold | src/utils/fare-calculator.js:62-84 | at a fuel price of 0.30 the total gets no surcharge, while the breakdown shows -2.00 |
| FareCalculator.BreakdownDoesNotReconcileUnderSurge | src/utils/fare-calculator.js:57-86 | 10 km, 30 min at surge 1.5 with defaults costs 57.00 while the itemised lines add up to 38.00 |
| FareCalculator.FifteenKilometreFare | src/utils/fare-calculator.js:57-74 | 15 km, 45 min with defaults costs 55.50 Bs |
| FareCalculator.ShortTripAtMinimumFare | src/utils/fare-calculator.js:57-74 | 0.5 km, 2 min with defaults is lifted to the 5.00 Bs minimum |
| FareCalculator.GetUsdRate | src/utils/fare-calculator.js:21-47 | the cache answers exactly when its rate and time are truthy and under an hour old, without changing it. A successful request returns `promedio`, else `venta`, else the configured rate, and stores it with time `now`. A failed request returns the configured rate and leaves the cache alone |
| FareCalculator.GetUsdRatePreservesInvariant | src/utils/fare-calculator.js:36-45 | a cache that only ever holds non-zero rates keeps that property across lookups |
| FareCalculator.FreshCacheMakesNoRequest | src/utils/fare-calculator.js:22-27 | on a cache hit the outcome of the request is irrelevant: none is made |
| FareCalculator.RateReusedWithinTtl | src/utils/fare-calculator.js:25-40 | after a successful request, a lookup less than an hour later returns the same rate from the cache |
| FareCalculator.CacheExpiresAfterTtl | src/utils/fare-calculator.js:21-40 | once an hour has passed since the cached time, `getUsdRate` does not answer from the cache, and a completed request re-stamps the cache with the current time |
| FareCalculator.FailureIsRetried | src/utils/fare-calculator.js:43-46 | a failed request caches nothing, so the next lookup is not a cache hit |
| FareCalculator.Calculate | src/utils/fare-calculator.js:49-98 | `calculate` prices and itemises the trip as above. The currency is USD exactly when 'USD' was asked for, and only then is there a dollar quote. Any other currency leaves the cache untouched. A USD quote uses the looked-up rate, names its source, and has two decimals within half a cent of amount / rate |
| FareCalculator.LocalCurrencyNeverFetches | src/utils/fare-calculator.js:88-95 | a bolívar quote does not depend on the clock or on the rate source, and is labelled BS |
| FareCalculator.CalculateCommission | src/utils/fare-calculator.js:103-112 | the split echoes the fare and the rate (0.15 when omitted). The commission is within half a cent of fare × rate. The earnings are within half a cent of fare − fare × rate. Both have two decimals |
| FareCalculator.SplitFare | src/utils/fare-calculator.js:104-110 | the rounded commission and earnings add up to the fare within a cent |
| FareCalculator.CommissionExactOnCents | src/utils/fare-calculator.js:104-110 | when the fare and the raw commission are whole cents, commission plus earnings is exactly the fare |
| FareCalculator.CommissionCanOvershootByACent | src/utils/fare-calculator.js:104-110 | a 0.90 fare at the default rate splits into 0.14 + 0.77 = 0.91 |
| ToolLogic.DistanceFrom | src/index.js:254-259 | a driver's distance from the centre has two decimals, is the utility distance to its position, and a `null` coordinate is measured as 0 |
| ToolLogic.Annotate | src/index.js:252-261 | each row, in order, paired with its distance from the search centre |
| ToolLogic.LabelledMultiset | src/index.js:252-261 | labelling each row with a distance leaves, as a multiset, each row at its own label as often as it occurs, and nothing else |
| ToolLogic.AnnotateMultiset | src/index.js:252-261 | the annotated list holds each row at its own distance, as often as the row occurs, and nothing else |
| ToolLogic.WithinRadius | src/index.js:262 | the filter keeps each row within the radius as often as it occurs and drops every other row |
| ToolLogic.Insert | src/index.js:263 | inserting into a list sorted by distance keeps it sorted and adds exactly the new element |
| ToolLogic.SortByDistance | src/index.js:263 | the sort returns a permutation of its input ordered by non-decreasing distance |
| ToolLogic.NearbyMembership | src/index.js:262-263 | an exact multiset of in-radius rows at their true distances lists every in-radius row and only such rows |
| ToolLogic.NearbyDrivers | src/index.js:252-263 | the result is sorted by distance and, as a multiset, is exactly the input rows within the radius, each at its true distance and as often as it occurs. A `null` row set reads as empty |
| ToolLogic.UnplacedDriverAtNullIsland | src/index.js:252-262 | a driver whose coordinates are both `null` is measured from 0°N 0°E and is listed whenever that point is within the radius |
| ToolLogic.SearchDrivers | src/index.js:240-276 | the radius defaults to 5 km, the drivers are the nearby drivers for that radius (the same multiset of in-radius rows, sorted) and `total` is their number |
| ToolLogic.TripDuration | src/index.js:341 | `duracion_min` when truthy, otherwise the ETA, which covers three minutes per km |
| ToolLogic.ZeroDurationUsesEstimate | src/index.js:341 | an explicit duration of 0 is replaced by the estimate |
| StdioServer.BuscarConductores | src/index.js:239-281 | a store error becomes the error reply. Otherwise the reply echoes the centre and the radius used, and lists, sorted and with their count, exactly the store rows within the radius (as a multiset), each at its true distance |
| StdioServer.QuoteOptions | src/index.js:342 | the options the handler passes ask for dollars exactly when `moneda` is 'USD', with surge 1 and the fuel surcharge on by default |
| StdioServer.CalcularTarifaAsWritten | src/index.js:338-358 | the handler as written reports the defaulted duration, but its `tarifa` serialises as an empty object; the un-awaited call still runs, so the rate cache ends as `calculate` leaves it, unchanged for a bolívar quote |
| StdioServer.CalcularTarifa | src/index.js:338-358 | the awaited handler reports the defaulted duration and the fare `calculate` returns, and the cache ends as `calculate` leaves it. The fare is in cents, at or above a whole-cent minimum, and never more than half a cent below any minimum. Its currency is USD exactly when asked. A bolívar quote leaves the rate cache as it was |
| StdioServer.UnawaitedFareIsLost | src/index.js:342 | the written handler's reply equals the awaited one except that the fare is lost, and both leave the same rate cache |
| StdioServer.WithStatus | src/index.js:428-429 | the status filter keeps only rides of that status, all drawn from the input, and as many as the input has of that status |
| StdioServer.WithStatusMultiset | src/index.js:428-429 | as a multiset, the filter's result is exactly the input's rides of that status, each as often as it occurs |
| StdioServer.Statistics | src/index.js:428-453 | the reply echoes the period; the total counts every row; the completed and cancelled counts are the numbers of rows with those statuses, never exceed the total together, and equal it when every row is one of the two. Earnings and distance are the rounded sums over completed rides only, a missing value counting 0. The average is 0 with no completed rides, and otherwise the sum of completed ratings (missing counting 0) divided by their number, rounded to cents. The cancellation rate is 0 with no rows and otherwise the cancelled share of all rows, as a percentage rounded to cents |
| StdioServer.ObtenerEstadisticas | src/index.js:396-453 | a store error becomes the error reply and a `null` row set fails with the TypeError of its `.filter`; otherwise the reply is the aggregation of the rows under the requested period, 'today' when omitted |
| StdioServer.MeanRating | src/index.js:433-435 | 0 for no completed rides; otherwise the mean, which times the number of rides gives back the rating sum (missing ratings counting 0) |
| StdioServer.CancellationRate | src/index.js:451-453 | the rate has two decimals, is within half a cent of cancelled / total × 100, lies in [0, 100], is 0 with no cancellations and 100 when all are cancelled |
| StdioServer.FilteredSumIsSumWhere | src/index.js:431-432 | summing the filtered completed rides equals a single pass that adds only completed rows |
| StdioServer.CountsPartitionRides | src/index.js:424-447 | completed and cancelled counts never exceed the total, and add up to it when the query's status filter held |
| StdioServer.CancelledRideEarnsNothing | src/index.js:428-449 | one more cancelled ride raises the cancelled count by one and changes neither earnings nor distance |
| StdioServer.AverageRatingWithinScale | src/index.js:433-450 | when every completed ride is rated within two whole-cent bounds and one exists, the reported average lies within them |
| StdioServer.RoundedMeanWithin | src/index.js:433-450 | the rounded mean of a non-empty list of bounded ratings respects the bounds |
| StdioServer.RatingSumWithin | src/index.js:434 | n ratings within [lo, hi] add up to between n·lo and n·hi |
| StdioServer.HasCompleted | src/index.js:428-433 | a completed row in the input makes the completed list non-empty, so the average divides |
| StdioServer.CalcularDistancia | src/index.js:503-527 | a missing point fails with the TypeError message. Otherwise the reply echoes both points and carries the src/utils/distance.js distance, with two decimals, and its ETA of three minutes per km rounded up |
| StdioServer.DistanciaSymmetric | src/index.js:503-527 | with an odd `sin`, swapping the points leaves distance and ETA unchanged and swaps the echo |
| McpEndpoint.InlineDistance | api/mcp.js:8-20 | the inline distance has two decimals |
| McpEndpoint.InlineToRad | api/mcp.js:22 | the inline `toRad` equals the utility's for every angle |
| McpEndpoint.InlineHalfChord | api/mcp.js:13-16 | the inline haversine `a`, written out from its own text; `InlineHalfChordMatchesUtility` pins its value |
| McpEndpoint.InlineHalfChordMatchesUtility | api/mcp.js:13-16 | the inline haversine `a`, written out from its own text, equals the utility's |
| McpEndpoint.InlineDistanceMatchesUtility | api/mcp.js:8-22 | the inline copy computes exactly what src/utils/distance.js computes |
| McpEndpoint.InlineDistanceSymmetricAndZero | api/mcp.js:8-20 | the inline copy is symmetric and gives 0 for identical points |
| McpEndpoint.InlineEta | api/mcp.js:24-27 | the inline ETA covers three minutes per km, rounded up to a whole minute |
| McpEndpoint.InlineEtaMatchesUtility | api/mcp.js:24-27 | the inline ETA equals the one in src/utils/distance.js |
| McpEndpoint.SyncCalculate | api/mcp.js:39-71 | the synchronous fare has two decimals and is never below a whole-cent minimum. Its breakdown carries the base fare and surge. It is in USD exactly when asked, and only then has a dollar amount, within half a cent of amount / the fixed rate |
| McpEndpoint.SyncSurged | api/mcp.js:42-50 | the endpoint's own text of steps 1 to 3 (raw fare, fuel surcharge above 0.50, surge); `SyncSurgedMatchesEngine` proves it equal to the engine's |
| McpEndpoint.SyncAmount | api/mcp.js:42-52 | the synchronous amount has two decimals and respects a whole-cent floor |
| McpEndpoint.SyncSurgedMatchesEngine | api/mcp.js:42-50 | the synchronous pipeline up to the surge is the async engine's |
| McpEndpoint.SyncAmountMatchesEngine | api/mcp.js:42-52 | the synchronous amount equals the async engine's for every input |
| McpEndpoint.SyncMatchesEngine | api/mcp.js:39-71 | both calculators agree on amount, currency and the distance and time charges, whatever the cache, clock or request outcome |
| McpEndpoint.SyncIsFallbackPath | api/mcp.js:65-68 | the synchronous dollar amount is what the async engine quotes when the cache is stale and the rate request fails |
| McpEndpoint.CallTool | api/mcp.js:161-245 | every failure, the unknown-tool one included, is a reply flagged `isError`; the search, fare and distance cases are listed below the table |
| McpEndpoint.StdioOnlyToolIsUnknownHere | api/mcp.js:233-243 | a stdio-only tool such as `crear_viaje` is an unknown tool here |

In full, `McpEndpoint.CallTool` (`tools/call`) states:

- failures are exactly the replies flagged `isError`;
- an unknown name fails with "Herramienta desconocida: <name>";
- a store error fails with its message;
- the search returns, sorted and with their count, exactly the in-radius store rows as a multiset (radius 5 km by default), each at its true distance;
- the fare tool quotes the synchronous fare for the defaulted duration;
- the distance tool fails on a missing point, and otherwise returns the inline distance, which has two decimals, with the inline ETA of that distance.

## Findings

| source | as written | input that shows it | evidently intended | confidence | as-written member | corrected member |
|---|---|---|---|---|---|---|
| src/index.js:342 | `fareCalc.calculate(...)` is async but is not awaited. `tarifa` is a pending Promise, which `JSON.stringify` writes as `{}` | any `calcular_tarifa` call, e.g. `distancia_km = 15` | `await fareCalc.calculate(...)`, so that the reply carries the fare object | high; not executed | StdioServer.CalcularTarifaAsWritten (with StdioServer.UnawaitedFareIsLost) | StdioServer.CalcularTarifa |

The same missing `await` occurs at src/index.js:297 and src/index.js:465. Those handlers (`crear_viaje`, `completar_viaje`) are not part of this model; see below.

## Left out

- Supabase queries and updates: the model takes the rows or the error they return as input.
- The MCP `Server` and the stdio and SSE transports: these are SDK plumbing.
- The DolarAPI `fetch` and `response.json()`. Their result is the input `FareCalculator.FetchOutcome`. A non-2xx status, a network error and an unreadable body all count as `FetchFailed`.
- The DolarAPI request has no time-out (src/utils/fare-calculator.js:30). A request that never answers leaves `calculate`, and the awaited `calcular_tarifa` handler, pending for ever; `FetchOutcome` only describes requests that complete.
- `console.warn` and `console.error` logging: these have no behavioural effect.
- api/index.js: a static metadata endpoint with no logic; api/index.js is not part of this model.
- The `tools/list` catalogues and their `inputSchema` literals: these are static data.
- The stdio server's `crear_viaje`, `actualizar_ubicacion_conductor` and `completar_viaje` handlers: they are store writes around the engine.
- The stdio server's unknown-tool default (src/index.js:531-532): it fails with the same message as the endpoint's, which `McpEndpoint.CallTool` models.
- The statistics handler's period-start dates: they depend on the wall clock and the local time zone. The model aggregates the rows the query returned. The query's status filter becomes the `Settled` hypothesis.
- IEEE-754 arithmetic: numbers are exact reals. `toFixed(2)` is exact round-half-away-from-zero on the real value, without binary representation artefacts.
- Real trigonometry: `sin`, `cos`, `sqrt` and `atan2` are caller-supplied functions, constrained only by the laws a lemma requires. Haversine accuracy is not stated.
- Environment variables: these are modelled as already parsed, a `parseFloat` that yields `NaN` being `None`.
- `NaN` arising from missing required tool arguments: required numeric arguments are taken as present.
- Concurrent lookups racing on the rate cache: the model is sequential.
- FareCalculator.Calculate: requires a non-zero fallback rate. `Resolve` always produces one, so the division by the rate is defined.
- ToolLogic.SortByDistance: does not state stability. `Array.prototype.sort` is stable, but the order among equally distant drivers is not promised by the handler.
- FareCalculator.CalculateCommission: an explicit `null` rate (as opposed to an omitted one) is not modelled. A rate is either given or omitted.

=== FILE: distance.dfy ===
/** Geo-kinematics of src/utils/distance.js: haversine great-circle distance
    and the constant-speed travel-time estimate. */
module Kinematics {
  import opened Numbers

  /** Earth radius in kilometres. */
  const EARTH_RADIUS_KM: real := 6371.0

  /** `Math.PI` as the decimal literal JavaScript prints for it. */
  const PI: real := 3.141592653589793

  /** Average city speed used for estimates, in km/h. */
  const AVG_SPEED_KMH: real := 20.0

  /** The trigonometric primitives the distance formula calls. They are
      parameters of the model: nothing about them is assumed beyond the laws
      a lemma names in its precondition. */
  datatype Trig = Trig(
    sin: real -> real,
    cos: real -> real,
    sqrt: real -> real,
    atan2: (real, real) -> real)

  /** `sin` is odd. */
  ghost predicate SinOdd(t: Trig) {
    forall x, y :: x == -y ==> t.sin(x) == -t.sin(y)
  }

  /** The values at zero and one that the zero-distance case needs. */
  ghost predicate AnchoredAtZero(t: Trig) {
    && t.sin(0.0) == 0.0
    && t.sqrt(0.0) == 0.0
    && t.sqrt(1.0) == 1.0
    && t.atan2(0.0, 1.0) == 0.0
  }

  /** Degrees to radians. */
  function ToRad(degrees: real): (radians: real)
    ensures radians < 0.0 <==> degrees < 0.0
    ensures radians == 0.0 <==> degrees == 0.0
  {
    degrees * (PI / 180.0)
  }

  /** The conversion is odd, so swapping the points negates both angle
      differences. */
  lemma ToRadOdd(degrees: real)
    ensures ToRad(-degrees) == -ToRad(degrees)
  {
  }

  /** Haversine `a`: the squared half-chord between the two points. */
  function HalfChord(t: Trig, lat1: real, lng1: real, lat2: real, lng2: real): real {
    var dLat := ToRad(lat2 - lat1);
    var dLng := ToRad(lng2 - lng1);
    t.sin(dLat / 2.0) * t.sin(dLat / 2.0)
      + t.cos(ToRad(lat1)) * t.cos(ToRad(lat2)) * t.sin(dLng / 2.0) * t.sin(dLng / 2.0)
  }

  /** Haversine `c`: the angular distance for a squared half-chord. */
  function CentralAngle(t: Trig, a: real): real {
    2.0 * t.atan2(t.sqrt(a), t.sqrt(1.0 - a))
  }

  /** `calculateDistance(lat1, lng1, lat2, lng2)` in kilometres, rounded to
      two decimals. */
  function Distance(t: Trig, lat1: real, lng1: real, lat2: real, lng2: real): (km: real)
    ensures TwoDecimals(km)
    ensures -0.005 <= km - EARTH_RADIUS_KM * CentralAngle(t, HalfChord(t, lat1, lng1, lat2, lng2)) <= 0.005
  {
    var c := CentralAngle(t, HalfChord(t, lat1, lng1, lat2, lng2));
    var distance := EARTH_RADIUS_KM * c;
    Round2(distance)
  }

  /** Swapping the two points negates both angle differences, which leaves
      the squared sines unchanged, and the cosine product commutes. */
  lemma HalfChordSymmetric(t: Trig, lat1: real, lng1: real, lat2: real, lng2: real)
    requires SinOdd(t)
    ensures HalfChord(t, lat1, lng1, lat2, lng2) == HalfChord(t, lat2, lng2, lat1, lng1)
  {
    var dLat, dLat' := ToRad(lat2 - lat1), ToRad(lat1 - lat2);
    var dLng, dLng' := ToRad(lng2 - lng1), ToRad(lng1 - lng2);
    assert dLat' / 2.0 == -(dLat / 2.0);
    assert dLng' / 2.0 == -(dLng / 2.0);
    var s, s' := t.sin(dLat / 2.0), t.sin(dLat' / 2.0);
    var g, g' := t.sin(dLng / 2.0), t.sin(dLng' / 2.0);
    assert s' == -s;
    assert g' == -g;
    var c1, c2 := t.cos(ToRad(lat1)), t.cos(ToRad(lat2));
    assert s' * s' == s * s;
    assert c2 * c1 * g' * g' == c1 * c2 * g * g;
  }

  /** The distance from p to q is the distance from q to p. */
  lemma DistanceSymmetric(t: Trig, lat1: real, lng1: real, lat2: real, lng2: real)
    requires SinOdd(t)
    ensures Distance(t, lat1, lng1, lat2, lng2) == Distance(t, lat2, lng2, lat1, lng1)
  {
    HalfChordSymmetric(t, lat1, lng1, lat2, lng2);
  }

  /** A point is at distance zero from itself. */
  lemma DistanceToSelfIsZero(t: Trig, lat: real, lng: real)
    requires AnchoredAtZero(t)
    ensures Distance(t, lat, lng, lat, lng) == 0.0
  {
    assert ToRad(lat - lat) / 2.0 == 0.0;
    assert ToRad(lng - lng) / 2.0 == 0.0;
    assert HalfChord(t, lat, lng, lat, lng) == 0.0;
    assert CentralAngle(t, 0.0) == 0.0;
  }

  /** `calculateETA(distanceKm)`: minutes at 20 km/h, a partial minute
      counted as a whole one. The least whole number of minutes covering
      three minutes per kilometre. */
  function Eta(distanceKm: real): (minutes: int)
    ensures 3.0 * distanceKm <= minutes as real < 3.0 * distanceKm + 1.0
  {
    var timeHours := distanceKm / AVG_SPEED_KMH;
    Ceil(timeHours * 60.0)
  }

  /** A longer trip never gets a shorter estimate. */
  lemma EtaMonotone(d1: real, d2: real)
    requires d1 <= d2
    ensures Eta(d1) <= Eta(d2)
  {
  }

  /** Zero distance takes zero minutes. */
  lemma EtaZero()
    ensures Eta(0.0) == 0
  {
  }

  /** A non-negative distance never gives a negative estimate. */
  lemma EtaNonNegative(d: real)
    requires d >= 0.0
    ensures Eta(d) >= 0
  {
  }

  /** For example, 3.33 km at 20 km/h is 9.99 minutes, reported as 10. */
  lemma EtaRoundsPartialMinuteUp()
    ensures Eta(3.33) == 10
  {
  }
}

=== FILE: fare_calculator.dfy ===
/** The fare engine of src/utils/fare-calculator.js: configuration with
    truthy-or defaults, the deterministic pricing pipeline, the one-hour
    exchange-rate cache and the commission split. The cache is an explicit
    state value threaded through the calls, the clock reading `now` and the
    outcome of the rate-source request are parameters. */
module FareCalculator {
  import opened Wrappers
  import opened Numbers

  // ---------------------------------------------------------------------
  // Configuration
  // ---------------------------------------------------------------------

  /** The six settings as one source offers them: the constructor's
      `config` object, or the environment after `parseFloat`. */
  datatype FareSettings = FareSettings(
    baseFare: Option<real>,
    perKm: Option<real>,
    perMin: Option<real>,
    minFare: Option<real>,
    fuelPrice: Option<real>,
    usdRate: Option<real>)

  /** `new FareCalculator()` with no configuration object. */
  const NO_SETTINGS := FareSettings(None, None, None, None, None, None)

  /** The settings an engine instance prices with, in bolivars (BS). */
  datatype FareConfig = FareConfig(
    baseFare: real,
    perKm: real,
    perMin: real,
    minFare: real,
    fuelPrice: real,
    usdRate: real)

  const DEFAULT_BASE_FARE: real := 3.0
  const DEFAULT_PER_KM: real := 2.0
  const DEFAULT_PER_MIN: real := 0.5
  const DEFAULT_MIN_FARE: real := 5.0
  const DEFAULT_FUEL_PRICE: real := 0.50
  const DEFAULT_USD_RATE: real := 45.0

  /** Every setting of a constructed engine is truthy. */
  predicate NoZeroSetting(c: FareConfig) {
    && c.baseFare != 0.0 && c.perKm != 0.0 && c.perMin != 0.0
    && c.minFare != 0.0 && c.fuelPrice != 0.0 && c.usdRate != 0.0
  }

  /** `config.x || parseFloat(env.X) || literal` for one setting. */
  function Setting(fromConfig: Option<real>, fromEnv: Option<real>, literal: real): (v: real)
    requires literal != 0.0
    ensures v != 0.0
    ensures Truthy(fromConfig) ==> v == fromConfig.value
    ensures !Truthy(fromConfig) && Truthy(fromEnv) ==> v == fromEnv.value
    ensures !Truthy(fromConfig) && !Truthy(fromEnv) ==> v == literal
  {
    Or(fromConfig, Or(fromEnv, literal))
  }

  /** The constructor: each setting independently falls back from the
      configuration object to the environment to its literal default. */
  function Resolve(config: FareSettings, env: FareSettings): (c: FareConfig)
    ensures NoZeroSetting(c)
    ensures c.baseFare == Setting(config.baseFare, env.baseFare, DEFAULT_BASE_FARE)
    ensures c.perKm == Setting(config.perKm, env.perKm, DEFAULT_PER_KM)
    ensures c.perMin == Setting(config.perMin, env.perMin, DEFAULT_PER_MIN)
    ensures c.minFare == Setting(config.minFare, env.minFare, DEFAULT_MIN_FARE)
    ensures c.fuelPrice == Setting(config.fuelPrice, env.fuelPrice, DEFAULT_FUEL_PRICE)
    ensures c.usdRate == Setting(config.usdRate, env.usdRate, DEFAULT_USD_RATE)
  {
    FareConfig(
      Setting(config.baseFare, env.baseFare, DEFAULT_BASE_FARE),
      Setting(config.perKm, env.perKm, DEFAULT_PER_KM),
      Setting(config.perMin, env.perMin, DEFAULT_PER_MIN),
      Setting(config.minFare, env.minFare, DEFAULT_MIN_FARE),
      Setting(config.fuelPrice, env.fuelPrice, DEFAULT_FUEL_PRICE),
      Setting(config.usdRate, env.usdRate, DEFAULT_USD_RATE))
  }

  /** With nothing configured anywhere the engine prices with 3 / 2 / 0.5 /
      5 / 0.50 / 45. */
  lemma DefaultConfiguration()
    ensures Resolve(NO_SETTINGS, NO_SETTINGS) == FareConfig(3.0, 2.0, 0.5, 5.0, 0.50, 45.0)
  {
  }

  /** A configured `0` counts as missing: the environment value, or failing
      that the literal default, is used instead, and the zero never reaches
      the engine. */
  lemma ConfiguredZeroIsIgnored(config: FareSettings, env: FareSettings)
    requires config.minFare == Some(0.0)
    ensures Resolve(config, env).minFare == (if Truthy(env.minFare) then env.minFare.value else DEFAULT_MIN_FARE)
    ensures Resolve(config, env).minFare != 0.0
  {
  }

  // ---------------------------------------------------------------------
  // Pricing pipeline
  // ---------------------------------------------------------------------

  /** The fuel price the surcharge is measured against. */
  const REFERENCE_FUEL_PRICE: real := 0.50

  /** Bolivars added per bolivar of fuel price above the reference. */
  const FUEL_SURCHARGE_FACTOR: real := 10.0

  /** Options of one `calculate` call; `None` is an omitted option. */
  datatype FareOptions = FareOptions(
    currency: Option<string>,
    surge: Option<real>,
    fuelSurcharge: Option<bool>)

  /** Destructuring defaults: currency 'BS', surge 1.0, fuel surcharge on. */
  function CurrencyOf(opts: FareOptions): string { opts.currency.GetOr("BS") }
  function SurgeOf(opts: FareOptions): real { opts.surge.GetOr(1.0) }
  function FuelFlagOf(opts: FareOptions): bool { opts.fuelSurcharge.GetOr(true) }

  /** Only the exact string 'USD' asks for a dollar quote. */
  predicate WantsUsd(opts: FareOptions) { CurrencyOf(opts) == "USD" }

  /** Step 1: base fare plus distance and time charges. */
  function RawFare(cfg: FareConfig, distanceKm: real, durationMin: real): (fare: real)
    ensures cfg.perKm >= 0.0 && cfg.perMin >= 0.0 && distanceKm >= 0.0 && durationMin >= 0.0 ==>
      fare >= cfg.baseFare
  {
    cfg.baseFare + distanceKm * cfg.perKm + durationMin * cfg.perMin
  }

  /** Step 2: the fuel surcharge added to the total, only when requested and
      the fuel price is strictly above the reference. */
  function FuelExtra(cfg: FareConfig, apply: bool): (extra: real)
    ensures extra >= 0.0
    ensures extra > 0.0 <==> apply && cfg.fuelPrice > REFERENCE_FUEL_PRICE
  {
    if apply && cfg.fuelPrice > REFERENCE_FUEL_PRICE then
      (cfg.fuelPrice - REFERENCE_FUEL_PRICE) * FUEL_SURCHARGE_FACTOR
    else 0.0
  }

  /** Steps 1 to 3: the fare before the floor. */
  function SurgedFare(cfg: FareConfig, distanceKm: real, durationMin: real, surge: real, applyFuel: bool): real {
    (RawFare(cfg, distanceKm, durationMin) + FuelExtra(cfg, applyFuel)) * surge
  }

  /** Steps 1 to 5: `amount_bs`. Surge is applied first, then the minimum
      fare floor, then rounding to cents. */
  function AmountBs(cfg: FareConfig, distanceKm: real, durationMin: real, surge: real, applyFuel: bool): (amount: real)
    ensures TwoDecimals(amount)
    ensures amount >= cfg.minFare - 0.005
    ensures TwoDecimals(cfg.minFare) ==> amount >= cfg.minFare
    ensures -0.005 <= amount - Max(SurgedFare(cfg, distanceKm, durationMin, surge, applyFuel), cfg.minFare) <= 0.005
    ensures SurgedFare(cfg, distanceKm, durationMin, surge, applyFuel) >= cfg.minFare ==>
      -0.005 <= amount - SurgedFare(cfg, distanceKm, durationMin, surge, applyFuel) <= 0.005
  {
    var fare := SurgedFare(cfg, distanceKm, durationMin, surge, applyFuel);
    var floored := Max(fare, cfg.minFare);
    Round2Monotone(cfg.minFare, floored);
    if TwoDecimals(cfg.minFare) then Round2Fixed(cfg.minFare); Round2(floored)
    else Round2(floored)
  }

  /** The itemisation returned with a fare. Charges are rounded from the
      components before surge and before the floor. */
  datatype Breakdown = Breakdown(
    baseFare: real,
    distanceCharge: real,
    timeCharge: real,
    surgeMultiplier: real,
    fuelSurcharge: real)

  /** The breakdown's fuel line: shown whenever the surcharge is requested,
      without the "above the reference price" condition the total uses. */
  function FuelLine(cfg: FareConfig, apply: bool): (line: real)
    ensures TwoDecimals(line)
    ensures !apply ==> line == 0.0
    ensures apply && cfg.fuelPrice < REFERENCE_FUEL_PRICE ==> line <= 0.0
    ensures apply ==> -0.005 <= line - (cfg.fuelPrice - REFERENCE_FUEL_PRICE) * FUEL_SURCHARGE_FACTOR <= 0.005
  {
    if apply then Round2((cfg.fuelPrice - REFERENCE_FUEL_PRICE) * FUEL_SURCHARGE_FACTOR) else 0.0
  }

  /** An itemised charge: a quantity at a unit price, rounded to cents. */
  function Charge(quantity: real, unitPrice: real): (c: real)
    ensures TwoDecimals(c)
    ensures -0.005 <= c - quantity * unitPrice <= 0.005
  {
    Round2(quantity * unitPrice)
  }

  function MakeBreakdown(cfg: FareConfig, distanceKm: real, durationMin: real, surge: real, applyFuel: bool): (b: Breakdown)
    ensures b.baseFare == cfg.baseFare && b.surgeMultiplier == surge
    ensures TwoDecimals(b.distanceCharge) && TwoDecimals(b.timeCharge) && TwoDecimals(b.fuelSurcharge)
    ensures -0.005 <= b.distanceCharge - distanceKm * cfg.perKm <= 0.005
    ensures -0.005 <= b.timeCharge - durationMin * cfg.perMin <= 0.005
    ensures b.fuelSurcharge == FuelLine(cfg, applyFuel)
  {
    Breakdown(
      cfg.baseFare,
      Charge(distanceKm, cfg.perKm),
      Charge(durationMin, cfg.perMin),
      surge,
      FuelLine(cfg, applyFuel))
  }

  datatype Currency = BS | USD

  /** The label reported with a live or fallback exchange rate. */
  const EXCHANGE_RATE_SOURCE: string := "DolarAPI (BCV Oficial)"

  /** The fields added for a dollar quote. */
  datatype UsdQuote = UsdQuote(amountUsd: real, exchangeRate: real, exchangeRateSource: string)

  /** The object `calculate` resolves to. */
  datatype FareResult = FareResult(
    amountBs: real,
    currency: Currency,
    breakdown: Breakdown,
    usd: Option<UsdQuote>)

  // ---------------------------------------------------------------------
  // Exchange-rate cache
  // ---------------------------------------------------------------------

  /** One hour, in milliseconds. */
  const CACHE_DURATION_MS: int := 3600000

  /** `usdRateCache` and `usdRateCacheTime`; both start as `null`. */
  datatype RateCache = RateCache(rate: Option<real>, time: Option<int>)

  /** A timestamp is truthy unless it is `0`. */
  predicate TruthyTime(t: Option<int>) {
    t.Some? && t.value != 0
  }

  /** The cached rate is returned without a request: both fields truthy and
      less than an hour old. */
  predicate ServesFromCache(cache: RateCache, now: int) {
    Truthy(cache.rate) && TruthyTime(cache.time) && now - cache.time.value < CACHE_DURATION_MS
  }

  /** What the request to the rate source produced: a failure (network
      error, non-2xx status, unreadable body), or a body whose `promedio`
      and `venta` fields may each be missing. */
  datatype FetchOutcome = FetchFailed | Fetched(promedio: Option<real>, venta: Option<real>)

  /** Where a returned rate came from. */
  datatype RateSource = FromCache | FromFetch | FromFallback

  datatype RateLookup = RateLookup(rate: real, cache: RateCache, source: RateSource)

  /** `getUsdRate()` at clock reading `now`, the request (made only on a
      cache miss) answering with `fetch`. */
  function GetUsdRate(cfg: FareConfig, cache: RateCache, now: int, fetch: FetchOutcome): (r: RateLookup)
    ensures r.source == FromCache <==> ServesFromCache(cache, now)
    ensures r.source == FromCache ==> r.rate == cache.rate.value && r.cache == cache
    ensures r.source == FromFallback <==> !ServesFromCache(cache, now) && fetch.FetchFailed?
    ensures r.source == FromFallback ==> r.rate == cfg.usdRate && r.cache == cache
    ensures r.source == FromFetch ==> r.cache == RateCache(Some(r.rate), Some(now))
    ensures r.source == FromFetch ==>
      r.rate == (if Truthy(fetch.promedio) then fetch.promedio.value
                 else if Truthy(fetch.venta) then fetch.venta.value
                 else cfg.usdRate)
    ensures cfg.usdRate != 0.0 ==> r.rate != 0.0
  {
    if ServesFromCache(cache, now) then
      RateLookup(cache.rate.value, cache, FromCache)
    else
      match fetch
      case FetchFailed =>
        RateLookup(cfg.usdRate, cache, FromFallback)
      case Fetched(promedio, venta) =>
        var rate := Or(promedio, Or(venta, cfg.usdRate));
        RateLookup(rate, RateCache(Some(rate), Some(now)), FromFetch)
  }

  /** A rate stored in the cache is always truthy. */
  predicate CacheInvariant(cache: RateCache) {
    cache.rate.Some? ==> cache.rate.value != 0.0
  }

  /** Every lookup keeps the cache invariant of an engine whose fallback
      rate is truthy, as the constructor guarantees. */
  lemma GetUsdRatePreservesInvariant(cfg: FareConfig, cache: RateCache, now: int, fetch: FetchOutcome)
    requires cfg.usdRate != 0.0
    requires CacheInvariant(cache)
    ensures CacheInvariant(GetUsdRate(cfg, cache, now, fetch).cache)
  {
  }

  /** On a cache hit the outcome of the request is irrelevant: no request
      is made. */
  lemma FreshCacheMakesNoRequest(cfg: FareConfig, cache: RateCache, now: int, f1: FetchOutcome, f2: FetchOutcome)
    requires ServesFromCache(cache, now)
    ensures GetUsdRate(cfg, cache, now, f1) == GetUsdRate(cfg, cache, now, f2)
  {
  }

  /** After a successful request at `t0`, any lookup in the following hour
      returns the same rate without asking again, even if the source would
      now fail. */
  lemma RateReusedWithinTtl(cfg: FareConfig, cache: RateCache, t0: int, f0: FetchOutcome, t1: int, f1: FetchOutcome)
    requires cfg.usdRate != 0.0
    requires !ServesFromCache(cache, t0) && f0.Fetched?
    requires t0 != 0 && t0 <= t1 < t0 + CACHE_DURATION_MS
    ensures var first := GetUsdRate(cfg, cache, t0, f0);
            var second := GetUsdRate(cfg, first.cache, t1, f1);
            second.source == FromCache && second.rate == first.rate && second.cache == first.cache
  {
  }

  /** Once an hour has passed since the cached fetch, the lookup does not
      answer from the cache, and a completed request re-stamps it with the
      current time. */
  lemma CacheExpiresAfterTtl(cfg: FareConfig, cache: RateCache, now: int, fetch: FetchOutcome)
    requires cache.time.Some? && now - cache.time.value >= CACHE_DURATION_MS
    ensures GetUsdRate(cfg, cache, now, fetch).source != FromCache
    ensures fetch.Fetched? ==> GetUsdRate(cfg, cache, now, fetch).cache.time == Some(now)
  {
    assert !ServesFromCache(cache, now);
  }

  /** Failures are not cached: after a failed request the next lookup at
      the same or a later time asks the source again. */
  lemma FailureIsRetried(cfg: FareConfig, cache: RateCache, t0: int, t1: int, f1: FetchOutcome)
    requires !ServesFromCache(cache, t0) && t0 <= t1
    ensures var first := GetUsdRate(cfg, cache, t0, FetchFailed);
            GetUsdRate(cfg, first.cache, t1, f1).source != FromCache
  {
  }

  // ---------------------------------------------------------------------
  // calculate
  // ---------------------------------------------------------------------

  /** A priced trip and the cache after pricing it. */
  datatype Priced = Priced(fare: FareResult, cache: RateCache)

  /** `await calculate(distanceKm, durationMin, options)`. */
  function Calculate(cfg: FareConfig, cache: RateCache, now: int, fetch: FetchOutcome,
                     distanceKm: real, durationMin: real, opts: FareOptions): (r: Priced)
    requires cfg.usdRate != 0.0
    ensures r.fare.amountBs == AmountBs(cfg, distanceKm, durationMin, SurgeOf(opts), FuelFlagOf(opts))
    ensures r.fare.breakdown == MakeBreakdown(cfg, distanceKm, durationMin, SurgeOf(opts), FuelFlagOf(opts))
    ensures r.fare.currency == USD <==> WantsUsd(opts)
    ensures r.fare.usd.Some? <==> WantsUsd(opts)
    ensures !WantsUsd(opts) ==> r.cache == cache
    ensures WantsUsd(opts) ==>
      var lookup := GetUsdRate(cfg, cache, now, fetch);
      && r.cache == lookup.cache
      && r.fare.usd.value.exchangeRate == lookup.rate
      && r.fare.usd.value.exchangeRateSource == EXCHANGE_RATE_SOURCE
      && TwoDecimals(r.fare.usd.value.amountUsd)
      && -0.005 <= r.fare.usd.value.amountUsd - r.fare.amountBs / lookup.rate <= 0.005
  {
    var surge := SurgeOf(opts);
    var applyFuel := FuelFlagOf(opts);
    var amount := AmountBs(cfg, distanceKm, durationMin, surge, applyFuel);
    var breakdown := MakeBreakdown(cfg, distanceKm, durationMin, surge, applyFuel);
    if WantsUsd(opts) then
      var lookup := GetUsdRate(cfg, cache, now, fetch);
      var quote := UsdQuote(Round2(amount / lookup.rate), lookup.rate, EXCHANGE_RATE_SOURCE);
      Priced(FareResult(amount, USD, breakdown, Some(quote)), lookup.cache)
    else
      Priced(FareResult(amount, BS, breakdown, None), cache)
  }

  /** A fare in bolivars neither consults the clock nor the rate source. */
  lemma LocalCurrencyNeverFetches(cfg: FareConfig, cache: RateCache, now1: int, f1: FetchOutcome, now2: int, f2: FetchOutcome,
                                  distanceKm: real, durationMin: real, opts: FareOptions)
    requires cfg.usdRate != 0.0 && !WantsUsd(opts)
    ensures Calculate(cfg, cache, now1, f1, distanceKm, durationMin, opts)
         == Calculate(cfg, cache, now2, f2, distanceKm, durationMin, opts)
    ensures Calculate(cfg, cache, now1, f1, distanceKm, durationMin, opts).fare.currency == BS
  {
  }

  /** The floor is applied after surge: whenever the surged fare is at or
      below a two-decimal minimum fare, the total is exactly that minimum. */
  lemma FloorAppliedAfterSurge(cfg: FareConfig, distanceKm: real, durationMin: real, surge: real, applyFuel: bool)
    requires TwoDecimals(cfg.minFare)
    requires SurgedFare(cfg, distanceKm, durationMin, surge, applyFuel) <= cfg.minFare
    ensures AmountBs(cfg, distanceKm, durationMin, surge, applyFuel) == cfg.minFare
  {
    Round2Fixed(cfg.minFare);
  }

  /** Scaling by a non-negative factor keeps order. */
  lemma ScaleMonotone(a: real, x: real, y: real)
    requires a >= 0.0 && x <= y
    ensures x * a <= y * a
  {
    assert y * a - x * a == (y - x) * a;
  }

  /** Flooring keeps order. */
  lemma MaxMonotone(x: real, y: real, floor: real)
    requires x <= y
    ensures Max(x, floor) <= Max(y, floor)
  {
  }

  /** A higher surge never lowers the fare of a trip whose unsurged price
      is non-negative. */
  lemma AmountMonotoneInSurge(cfg: FareConfig, distanceKm: real, durationMin: real, s1: real, s2: real, applyFuel: bool)
    requires RawFare(cfg, distanceKm, durationMin) >= 0.0
    requires s1 <= s2
    ensures AmountBs(cfg, distanceKm, durationMin, s1, applyFuel) <= AmountBs(cfg, distanceKm, durationMin, s2, applyFuel)
  {
    SurgedFareMonotoneInSurge(cfg, distanceKm, durationMin, s1, s2, applyFuel);
    SurgedAmountMonotone(cfg, distanceKm, durationMin, s1, applyFuel, distanceKm, durationMin, s2, applyFuel);
  }

  lemma SurgedFareMonotoneInSurge(cfg: FareConfig, distanceKm: real, durationMin: real, s1: real, s2: real, applyFuel: bool)
    requires RawFare(cfg, distanceKm, durationMin) >= 0.0
    requires s1 <= s2
    ensures SurgedFare(cfg, distanceKm, durationMin, s1, applyFuel) <= SurgedFare(cfg, distanceKm, durationMin, s2, applyFuel)
  {
    ScaleMonotone(RawFare(cfg, distanceKm, durationMin) + FuelExtra(cfg, applyFuel), s1, s2);
  }

  /** With a non-negative per-km rate and surge, a longer trip never costs
      less. */
  lemma AmountMonotoneInDistance(cfg: FareConfig, d1: real, d2: real, durationMin: real, surge: real, applyFuel: bool)
    requires cfg.perKm >= 0.0 && surge >= 0.0
    requires d1 <= d2
    ensures AmountBs(cfg, d1, durationMin, surge, applyFuel) <= AmountBs(cfg, d2, durationMin, surge, applyFuel)
  {
    SurgedFareMonotoneInDistance(cfg, d1, d2, durationMin, surge, applyFuel);
    SurgedAmountMonotone(cfg, d1, durationMin, surge, applyFuel, d2, durationMin, surge, applyFuel);
  }

  lemma SurgedFareMonotoneInDistance(cfg: FareConfig, d1: real, d2: real, durationMin: real, surge: real, applyFuel: bool)
    requires cfg.perKm >= 0.0 && surge >= 0.0
    requires d1 <= d2
    ensures SurgedFare(cfg, d1, durationMin, surge, applyFuel) <= SurgedFare(cfg, d2, durationMin, surge, applyFuel)
  {
    ScaleMonotone(cfg.perKm, d1, d2);
    ScaleMonotone(surge, RawFare(cfg, d1, durationMin) + FuelExtra(cfg, applyFuel),
                         RawFare(cfg, d2, durationMin) + FuelExtra(cfg, applyFuel));
  }

  /** The floor and the rounding preserve the order of two surged fares. */
  lemma SurgedAmountMonotone(cfg: FareConfig, d1: real, t1: real, s1: real, fuel1: bool,
                                             d2: real, t2: real, s2: real, fuel2: bool)
    requires SurgedFare(cfg, d1, t1, s1, fuel1) <= SurgedFare(cfg, d2, t2, s2, fuel2)
    ensures AmountBs(cfg, d1, t1, s1, fuel1) <= AmountBs(cfg, d2, t2, s2, fuel2)
  {
    var f1 := SurgedFare(cfg, d1, t1, s1, fuel1);
    var f2 := SurgedFare(cfg, d2, t2, s2, fuel2);
    MaxMonotone(f1, f2, cfg.minFare);
    Round2Monotone(Max(f1, cfg.minFare), Max(f2, cfg.minFare));
  }

  /** The breakdown charges depend on neither surge nor the minimum fare:
      repricing a trip at another surge under another minimum fare itemises
      the same charges and differs only in the reported multiplier. */
  lemma BreakdownIgnoresSurgeAndFloor(cfg: FareConfig, minFare2: real, distanceKm: real, durationMin: real,
                                      s1: real, s2: real, applyFuel: bool)
    ensures MakeBreakdown(cfg, distanceKm, durationMin, s1, applyFuel).(surgeMultiplier := s2)
         == MakeBreakdown(cfg.(minFare := minFare2), distanceKm, durationMin, s2, applyFuel)
  {
  }

  /** The breakdown's fuel line skips the threshold condition: at a fuel price
      of 0.30 it shows -2.00 while the total adds no surcharge. */
  lemma FuelLineWithoutThreshold()
    ensures var cfg := FareConfig(3.0, 2.0, 0.5, 5.0, 0.30, 45.0);
            FuelExtra(cfg, true) == 0.0 && FuelLine(cfg, true) == -2.0
  {
  }

  /** Under surge the itemised charges do not add up to the total: 10 km in
      30 minutes at surge 1.5 costs 57.00 but itemises 3 + 20.00 + 15.00. */
  lemma BreakdownDoesNotReconcileUnderSurge(cache: RateCache, now: int, fetch: FetchOutcome)
    ensures var cfg := Resolve(NO_SETTINGS, NO_SETTINGS);
            var r := Calculate(cfg, cache, now, fetch, 10.0, 30.0, FareOptions(Some("BS"), Some(1.5), None));
            var b := r.fare.breakdown;
            r.fare.amountBs == 57.0 && b.baseFare + b.distanceCharge + b.timeCharge + b.fuelSurcharge == 38.0
  {
    var cfg := Resolve(NO_SETTINGS, NO_SETTINGS);
    Round2Fixed(57.0);
    Round2Fixed(20.0);
    Round2Fixed(15.0);
    Round2Fixed(0.0);
  }

  /** 15 km in 45 minutes with the default rates: 3 + 30 + 22.5. */
  lemma FifteenKilometreFare(cache: RateCache, now: int, fetch: FetchOutcome)
    ensures Calculate(Resolve(NO_SETTINGS, NO_SETTINGS), cache, now, fetch, 15.0, 45.0, FareOptions(Some("BS"), None, None)).fare.amountBs == 55.5
  {
    Round2Fixed(55.5);
  }

  /** 0.5 km in 2 minutes prices at exactly the minimum fare. */
  lemma ShortTripAtMinimumFare(cache: RateCache, now: int, fetch: FetchOutcome)
    ensures Calculate(Resolve(NO_SETTINGS, NO_SETTINGS), cache, now, fetch, 0.5, 2.0, FareOptions(Some("BS"), None, None)).fare.amountBs == 5.0
  {
    Round2Fixed(5.0);
  }

  // ---------------------------------------------------------------------
  // Commission
  // ---------------------------------------------------------------------

  const DEFAULT_COMMISSION_RATE: real := 0.15

  datatype Commission = Commission(
    totalFare: real,
    platformCommission: real,
    driverEarnings: real,
    commissionRate: real)

  /** `calculateCommission(fareAmount, commissionRate = 0.15)`. */
  function CalculateCommission(fareAmount: real, commissionRate: Option<real>): (c: Commission)
    ensures c.totalFare == fareAmount
    ensures c.commissionRate == (if commissionRate.Some? then commissionRate.value else DEFAULT_COMMISSION_RATE)
    ensures TwoDecimals(c.platformCommission) && TwoDecimals(c.driverEarnings)
    ensures var rate := commissionRate.GetOr(DEFAULT_COMMISSION_RATE);
            && -0.005 <= c.platformCommission - fareAmount * rate <= 0.005
            && -0.005 <= c.driverEarnings - (fareAmount - fareAmount * rate) <= 0.005
  {
    SplitFare(fareAmount, commissionRate.GetOr(DEFAULT_COMMISSION_RATE))
  }

  /** The split at a given rate. Earnings are computed from the unrounded
      commission, so the two rounded parts can miss the fare by up to a
      cent either way. */
  function SplitFare(fareAmount: real, rate: real): (c: Commission)
    ensures c.totalFare == fareAmount && c.commissionRate == rate
    ensures TwoDecimals(c.platformCommission) && TwoDecimals(c.driverEarnings)
    ensures -0.005 <= c.platformCommission - fareAmount * rate <= 0.005
    ensures -0.005 <= c.driverEarnings - (fareAmount - fareAmount * rate) <= 0.005
    ensures -0.01 <= c.platformCommission + c.driverEarnings - fareAmount <= 0.01
  {
    var commission := fareAmount * rate;
    var driverEarnings := fareAmount - commission;
    Commission(fareAmount, Round2(commission), Round2(driverEarnings), rate)
  }

  /** When the fare and the raw commission are whole cents the split is
      exact. */
  lemma CommissionExactOnCents(fareAmount: real, rate: real)
    requires TwoDecimals(fareAmount) && TwoDecimals(fareAmount * rate)
    ensures var c := CalculateCommission(fareAmount, Some(rate));
            c.platformCommission + c.driverEarnings == fareAmount
  {
    assert CalculateCommission(fareAmount, Some(rate)) == SplitFare(fareAmount, rate);
    SplitOfCentsIsExact(fareAmount, fareAmount * rate);
  }

  /** Splitting a whole-cent amount into a whole-cent part and the rest
      needs no rounding. */
  lemma SplitOfCentsIsExact(total: real, part: real)
    requires TwoDecimals(total) && TwoDecimals(part)
    ensures Round2(part) + Round2(total - part) == total
  {
    var k := (total * 100.0).Floor;
    var m := (part * 100.0).Floor;
    assert total * 100.0 == k as real && part * 100.0 == m as real;
    assert (total - part) * 100.0 == total * 100.0 - part * 100.0;
    assert (total - part) * 100.0 == (k - m) as real;
    assert ((total - part) * 100.0).Floor == k - m;
    assert TwoDecimals(total - part);
    Round2Fixed(part);
    Round2Fixed(total - part);
  }

  /** Rounding both halves up can overshoot: a 0.90 fare at the default
      rate splits into 0.14 + 0.77. */
  lemma CommissionCanOvershootByACent()
    ensures var c := CalculateCommission(0.90, None);
            c.platformCommission == 0.14 && c.driverEarnings == 0.77
            && c.platformCommission + c.driverEarnings == 0.91
  {
  }
}

=== FILE: mcp_endpoint.dfy ===
/** The HTTP tool endpoint of api/mcp.js: its inline copies of the distance
    and ETA helpers, its synchronous fare calculator with a fixed dollar
    rate, and the `tools/call` dispatch with the store query replaced by
    the rows it returns. */
module McpEndpoint {
  import opened Wrappers
  import opened Numbers
  import Kinematics
  import FareCalculator
  import opened ToolLogic

  // ---------------------------------------------------------------------
  // Inline helpers
  // ---------------------------------------------------------------------

  /** The inline `toRad`. */
  function InlineToRad(degrees: real): (radians: real)
    ensures radians == Kinematics.ToRad(degrees)
  {
    degrees * (3.141592653589793 / 180.0)
  }

  /** The inline haversine `a`. */
  function InlineHalfChord(t: Kinematics.Trig, lat1: real, lng1: real, lat2: real, lng2: real): real {
    var dLat := InlineToRad(lat2 - lat1);
    var dLng := InlineToRad(lng2 - lng1);
    t.sin(dLat / 2.0) * t.sin(dLat / 2.0)
      + t.cos(InlineToRad(lat1)) * t.cos(InlineToRad(lat2)) * t.sin(dLng / 2.0) * t.sin(dLng / 2.0)
  }

  /** The inline `calculateDistance`, written out on its own: haversine `a`
      and `c`, then `R * c` rounded to cents with `R = 6371`. */
  function InlineDistance(t: Kinematics.Trig, lat1: real, lng1: real, lat2: real, lng2: real): (km: real)
    ensures TwoDecimals(km)
  {
    var a := InlineHalfChord(t, lat1, lng1, lat2, lng2);
    var c := 2.0 * t.atan2(t.sqrt(a), t.sqrt(1.0 - a));
    Round2(6371.0 * c)
  }

  /** The inline `a` is the utility's. */
  lemma InlineHalfChordMatchesUtility(t: Kinematics.Trig, lat1: real, lng1: real, lat2: real, lng2: real)
    ensures InlineHalfChord(t, lat1, lng1, lat2, lng2) == Kinematics.HalfChord(t, lat1, lng1, lat2, lng2)
  {
    assert InlineToRad(lat2 - lat1) == Kinematics.ToRad(lat2 - lat1);
    assert InlineToRad(lng2 - lng1) == Kinematics.ToRad(lng2 - lng1);
    assert InlineToRad(lat1) == Kinematics.ToRad(lat1) && InlineToRad(lat2) == Kinematics.ToRad(lat2);
  }

  /** The inline copy computes exactly what src/utils/distance.js does. */
  lemma InlineDistanceMatchesUtility(t: Kinematics.Trig, lat1: real, lng1: real, lat2: real, lng2: real)
    ensures InlineDistance(t, lat1, lng1, lat2, lng2) == Kinematics.Distance(t, lat1, lng1, lat2, lng2)
  {
    InlineHalfChordMatchesUtility(t, lat1, lng1, lat2, lng2);
  }

  /** Hence it is symmetric and zero from a point to itself. */
  lemma InlineDistanceSymmetricAndZero(t: Kinematics.Trig, lat1: real, lng1: real, lat2: real, lng2: real)
    requires Kinematics.SinOdd(t) && Kinematics.AnchoredAtZero(t)
    ensures InlineDistance(t, lat1, lng1, lat2, lng2) == InlineDistance(t, lat2, lng2, lat1, lng1)
    ensures InlineDistance(t, lat1, lng1, lat1, lng1) == 0.0
  {
    InlineDistanceMatchesUtility(t, lat1, lng1, lat2, lng2);
    InlineDistanceMatchesUtility(t, lat2, lng2, lat1, lng1);
    InlineDistanceMatchesUtility(t, lat1, lng1, lat1, lng1);
    Kinematics.DistanceSymmetric(t, lat1, lng1, lat2, lng2);
    Kinematics.DistanceToSelfIsZero(t, lat1, lng1);
  }

  /** The inline `calculateETA`: `Math.ceil((d / 20) * 60)`. */
  function InlineEta(distanceKm: real): (minutes: int)
    ensures 3.0 * distanceKm <= minutes as real < 3.0 * distanceKm + 1.0
  {
    Ceil((distanceKm / Kinematics.AVG_SPEED_KMH) * 60.0)
  }

  /** The inline copy is the same function as the utility. */
  lemma InlineEtaMatchesUtility(distanceKm: real)
    ensures InlineEta(distanceKm) == Kinematics.Eta(distanceKm)
  {
  }

  // ---------------------------------------------------------------------
  // Synchronous fare calculator
  // ---------------------------------------------------------------------

  /** The breakdown of this variant has no fuel line. */
  datatype SyncBreakdown = SyncBreakdown(baseFare: real, distanceCharge: real, timeCharge: real, surgeMultiplier: real)

  /** A quote of this variant: in dollars it adds only `amount_usd`. */
  datatype SyncFare = SyncFare(amountBs: real, currency: FareCalculator.Currency, breakdown: SyncBreakdown, amountUsd: Option<real>)

  /** `calculate(distanceKm, durationMin, options)` with no rate lookup:
      dollars are priced at the configured rate. */
  function SyncCalculate(cfg: FareCalculator.FareConfig, distanceKm: real, durationMin: real,
                         opts: FareCalculator.FareOptions): (r: SyncFare)
    requires cfg.usdRate != 0.0
    ensures TwoDecimals(r.amountBs) && r.amountBs >= cfg.minFare - 0.005
    ensures TwoDecimals(cfg.minFare) ==> r.amountBs >= cfg.minFare
    ensures r.breakdown.baseFare == cfg.baseFare && r.breakdown.surgeMultiplier == FareCalculator.SurgeOf(opts)
    ensures r.currency == FareCalculator.USD <==> FareCalculator.WantsUsd(opts)
    ensures r.amountUsd.Some? <==> FareCalculator.WantsUsd(opts)
    ensures r.amountUsd.Some? ==>
      TwoDecimals(r.amountUsd.value) && -0.005 <= r.amountUsd.value - r.amountBs / cfg.usdRate <= 0.005
  {
    var surge := FareCalculator.SurgeOf(opts);
    var amount := SyncAmount(cfg, distanceKm, durationMin, surge, FareCalculator.FuelFlagOf(opts));
    var breakdown := SyncBreakdown(
      cfg.baseFare,
      FareCalculator.Charge(distanceKm, cfg.perKm),
      FareCalculator.Charge(durationMin, cfg.perMin),
      surge);
    if FareCalculator.WantsUsd(opts) then
      SyncFare(amount, FareCalculator.USD, breakdown, Some(Round2(amount / cfg.usdRate)))
    else
      SyncFare(amount, FareCalculator.BS, breakdown, None)
  }

  /** The variant's own statement of steps 1 to 3: base, distance and
      time, then the fuel surcharge above 0.50, then surge. */
  function SyncSurged(cfg: FareCalculator.FareConfig, distanceKm: real, durationMin: real, surge: real, applyFuel: bool): real {
    var fare := cfg.baseFare + distanceKm * cfg.perKm + durationMin * cfg.perMin;
    var fueled := if applyFuel && cfg.fuelPrice > 0.50 then fare + (cfg.fuelPrice - 0.50) * 10.0 else fare;
    fueled * surge
  }

  /** Then the floor, then rounding. */
  function SyncAmount(cfg: FareCalculator.FareConfig, distanceKm: real, durationMin: real, surge: real, applyFuel: bool): (amount: real)
    ensures TwoDecimals(amount) && amount >= cfg.minFare - 0.005
    ensures TwoDecimals(cfg.minFare) ==> amount >= cfg.minFare
  {
    var floored := Max(SyncSurged(cfg, distanceKm, durationMin, surge, applyFuel), cfg.minFare);
    Round2Monotone(cfg.minFare, floored);
    if TwoDecimals(cfg.minFare) then Round2Fixed(cfg.minFare); Round2(floored) else Round2(floored)
  }

  /** Steps 1 to 3 agree with the engine's. */
  lemma SyncSurgedMatchesEngine(cfg: FareCalculator.FareConfig, distanceKm: real, durationMin: real, surge: real, applyFuel: bool)
    ensures SyncSurged(cfg, distanceKm, durationMin, surge, applyFuel)
         == FareCalculator.SurgedFare(cfg, distanceKm, durationMin, surge, applyFuel)
  {
  }

  /** Hence the variant's total is the engine's. */
  lemma SyncAmountMatchesEngine(cfg: FareCalculator.FareConfig, distanceKm: real, durationMin: real, surge: real, applyFuel: bool)
    ensures SyncAmount(cfg, distanceKm, durationMin, surge, applyFuel)
         == FareCalculator.AmountBs(cfg, distanceKm, durationMin, surge, applyFuel)
  {
    SyncSurgedMatchesEngine(cfg, distanceKm, durationMin, surge, applyFuel);
  }

  /** Both calculators run the same pipeline: the same total in bolivars and
      the same distance and time charges, whatever the cache state. */
  lemma SyncMatchesEngine(cfg: FareCalculator.FareConfig, cache: FareCalculator.RateCache, now: int,
                          fetch: FareCalculator.FetchOutcome, distanceKm: real, durationMin: real,
                          opts: FareCalculator.FareOptions)
    requires cfg.usdRate != 0.0
    ensures var sync := SyncCalculate(cfg, distanceKm, durationMin, opts);
            var full := FareCalculator.Calculate(cfg, cache, now, fetch, distanceKm, durationMin, opts).fare;
            && sync.amountBs == full.amountBs
            && sync.currency == full.currency
            && sync.breakdown.distanceCharge == full.breakdown.distanceCharge
            && sync.breakdown.timeCharge == full.breakdown.timeCharge
  {
    SyncAmountMatchesEngine(cfg, distanceKm, durationMin, FareCalculator.SurgeOf(opts), FareCalculator.FuelFlagOf(opts));
  }

  /** The synchronous variant is the engine's fallback path: a dollar quote
      equals the engine's when the cache is stale and the rate request
      fails. */
  lemma SyncIsFallbackPath(cfg: FareCalculator.FareConfig, cache: FareCalculator.RateCache, now: int,
                           distanceKm: real, durationMin: real, opts: FareCalculator.FareOptions)
    requires cfg.usdRate != 0.0
    requires FareCalculator.WantsUsd(opts) && !FareCalculator.ServesFromCache(cache, now)
    ensures var sync := SyncCalculate(cfg, distanceKm, durationMin, opts);
            var full := FareCalculator.Calculate(cfg, cache, now, FareCalculator.FetchFailed, distanceKm, durationMin, opts).fare;
            sync.amountUsd == Some(full.usd.value.amountUsd) && full.usd.value.exchangeRate == cfg.usdRate
  {
    SyncMatchesEngine(cfg, cache, now, FareCalculator.FetchFailed, distanceKm, durationMin, opts);
    var amount := SyncCalculate(cfg, distanceKm, durationMin, opts).amountBs;
    assert SyncCalculate(cfg, distanceKm, durationMin, opts).amountUsd == Some(Round2(amount / cfg.usdRate));
  }

  // ---------------------------------------------------------------------
  // tools/call
  // ---------------------------------------------------------------------

  /** The call's arguments as the tool schemas declare them: numbers the
      schema requires are present, optional ones may be omitted. */
  datatype ToolArgs = ToolArgs(
    latitud: real,
    longitud: real,
    radioKm: Option<real>,
    distanciaKm: real,
    duracionMin: Option<real>,
    moneda: Option<string>,
    origen: Option<Point>,
    destino: Option<Point>)

  /** What the driver query returned: an error, or `data` (maybe `null`). */
  datatype DriverQuery = QueryFailed(message: string) | QueryRows(data: Option<seq<Driver>>)

  /** The JSON text of the reply, by case. */
  datatype ToolBody =
    | DriversFound(total: int, conductores: seq<NearbyDriver>)
    | FareQuoted(tarifa: SyncFare)
    | DistanceMeasured(distanciaKm: real, duracionEstimadaMin: int)
    | Failure(error: string)

  datatype ToolResponse = ToolResponse(body: ToolBody, isError: bool)

  const SEARCH_TOOL: string := "buscar_conductores_disponibles"
  const FARE_TOOL: string := "calcular_tarifa"
  const DISTANCE_TOOL: string := "calcular_distancia"

  predicate KnownTool(name: string) {
    name == SEARCH_TOOL || name == FARE_TOOL || name == DISTANCE_TOOL
  }

  function Fail(message: string): ToolResponse {
    ToolResponse(Failure(message), true)
  }

  /** The `tools/call` handler. Every thrown error, the unknown-tool error
      included, becomes a failure reply rather than escaping. The search and
      the duration default here call this file's inline `calculateDistance`
      and `calculateETA`; they are stated through `ToolLogic`, which uses
      the utilities, because `InlineDistanceMatchesUtility` and
      `InlineEtaMatchesUtility` make the two equal for every input. */
  function CallTool(t: Kinematics.Trig, cfg: FareCalculator.FareConfig, name: string, args: ToolArgs,
                    query: DriverQuery): (r: ToolResponse)
    requires cfg.usdRate != 0.0
    ensures r.isError <==> r.body.Failure?
    ensures !KnownTool(name) ==> r == Fail("Herramienta desconocida: " + name)
    ensures name == SEARCH_TOOL && query.QueryFailed? ==> r == Fail(query.message)
    ensures name == SEARCH_TOOL && query.QueryRows? ==>
      && r.body.DriversFound?
      && r.body.total == |r.body.conductores|
      && SortedByDistance(r.body.conductores)
      && ExactlyTheNearbyRows(t, args.latitud, args.longitud, args.radioKm.GetOr(DEFAULT_RADIUS_KM),
                              query.data.GetOr([]), r.body.conductores)
      && (forall x :: x in r.body.conductores ==> x.distanceKm <= args.radioKm.GetOr(DEFAULT_RADIUS_KM))
      && (forall x :: x in r.body.conductores ==>
            x.driver in query.data.GetOr([]) && x.distanceKm == DistanceFrom(t, args.latitud, args.longitud, x.driver))
      && (forall d :: d in query.data.GetOr([]) && DistanceFrom(t, args.latitud, args.longitud, d) <= args.radioKm.GetOr(DEFAULT_RADIUS_KM) ==>
            NearbyDriver(d, DistanceFrom(t, args.latitud, args.longitud, d)) in r.body.conductores)
    ensures name == FARE_TOOL ==>
      r == ToolResponse(FareQuoted(SyncCalculate(cfg, args.distanciaKm, TripDuration(args.duracionMin, args.distanciaKm),
                                                 FareCalculator.FareOptions(Some(args.moneda.GetOr("BS")), None, None))), false)
    ensures name == DISTANCE_TOOL && (args.origen.None? || args.destino.None?) ==> r == Fail(MISSING_POINT_ERROR)
    ensures name == DISTANCE_TOOL && args.origen.Some? && args.destino.Some? ==>
      && r.body.DistanceMeasured?
      && r.body.distanciaKm == InlineDistance(t, args.origen.value.latitud, args.origen.value.longitud,
                                              args.destino.value.latitud, args.destino.value.longitud)
      && r.body.duracionEstimadaMin == InlineEta(r.body.distanciaKm)
      && TwoDecimals(r.body.distanciaKm)
      && 3.0 * r.body.distanciaKm <= r.body.duracionEstimadaMin as real < 3.0 * r.body.distanciaKm + 1.0
  {
    if name == SEARCH_TOOL then
      match query
      case QueryFailed(message) => Fail(message)
      case QueryRows(data) =>
        var found := SearchDrivers(t, args.latitud, args.longitud, args.radioKm, data);
        assert found.drivers == NearbyDrivers(t, args.latitud, args.longitud, found.radiusKm, data);
        ToolResponse(DriversFound(found.total, found.drivers), false)
    else if name == FARE_TOOL then
      var duracion := TripDuration(args.duracionMin, args.distanciaKm);
      var tarifa := SyncCalculate(cfg, args.distanciaKm, duracion,
                                  FareCalculator.FareOptions(Some(args.moneda.GetOr("BS")), None, None));
      ToolResponse(FareQuoted(tarifa), false)
    else if name == DISTANCE_TOOL then
      if args.origen.None? || args.destino.None? then Fail(MISSING_POINT_ERROR)
      else
        var o, d := args.origen.value, args.destino.value;
        var distancia := InlineDistance(t, o.latitud, o.longitud, d.latitud, d.longitud);
        ToolResponse(DistanceMeasured(distancia, InlineEta(distancia)), false)
    else
      Fail("Herramienta desconocida: " + name)
  }

  /** A tool this endpoint does not serve, such as one only the stdio
      server offers, fails with a message naming it. */
  lemma StdioOnlyToolIsUnknownHere(t: Kinematics.Trig, cfg: FareCalculator.FareConfig, args: ToolArgs, query: DriverQuery)
    requires cfg.usdRate != 0.0
    ensures CallTool(t, cfg, "crear_viaje", args, query)
         == ToolResponse(Failure("Herramienta desconocida: crear_viaje"), true)
  {
    assert !KnownTool("crear_viaje");
  }
}

=== FILE: numbers.dfy ===
/** JavaScript number behaviour the pricing code relies on, stated over the
    reals: truthiness with `||` fallbacks, `parseFloat(x.toFixed(2))`,
    `Math.ceil` and `Math.max`. */
module Numbers {
  import opened Wrappers

  /** A number is truthy unless it is `0`; `undefined` and `NaN` are `None`. */
  predicate Truthy(o: Option<real>) {
    o.Some? && o.value != 0.0
  }

  /** `a || b`: the first operand when it is truthy, otherwise the second. */
  function Or(a: Option<real>, b: real): (r: real)
    ensures Truthy(a) ==> r == a.value
    ensures !Truthy(a) ==> r == b
  {
    if Truthy(a) then a.value else b
  }

  /** `x || 0` for a numeric field: a missing value counts as zero, and a
      zero stays zero. */
  function OrZero(o: Option<real>): (r: real)
    ensures o.Some? ==> r == o.value
    ensures o.None? ==> r == 0.0
  {
    Or(o, 0.0)
  }

  /** `x` has at most two decimals: `100 * x` is a whole number. */
  predicate TwoDecimals(x: real) {
    (x * 100.0).Floor as real == x * 100.0
  }

  /** `parseFloat(x.toFixed(2))` on the exact value: round to the nearest
      hundredth, ties away from zero (toFixed rounds the magnitude and keeps
      the sign). */
  function Round2(x: real): (r: real)
    ensures TwoDecimals(r)
    ensures -0.005 <= r - x <= 0.005
    ensures x >= 0.0 ==> r >= 0.0
    ensures x <= 0.0 ==> r <= 0.0
  {
    if x >= 0.0 then
      var k := (x * 100.0 + 0.5).Floor;
      CentsHaveTwoDecimals(k);
      k as real / 100.0
    else
      var k := ((-x) * 100.0 + 0.5).Floor;
      CentsHaveTwoDecimals(-k);
      (-k) as real / 100.0
  }

  /** A whole number of hundredths has at most two decimals. */
  lemma CentsHaveTwoDecimals(k: int)
    ensures TwoDecimals(k as real / 100.0)
  {
    assert (k as real / 100.0) * 100.0 == k as real;
  }

  /** Rounding leaves a value that already has two decimals unchanged. */
  lemma Round2Fixed(x: real)
    requires TwoDecimals(x)
    ensures Round2(x) == x
  {
    var m := (x * 100.0).Floor;
    if x >= 0.0 {
      assert (x * 100.0 + 0.5).Floor == m;
    } else {
      assert ((-x) * 100.0).Floor == -m;
      assert ((-x) * 100.0 + 0.5).Floor == -m;
    }
  }

  /** An exact half cent rounds away from zero, as `toFixed` does on the
      exact value. */
  lemma Round2TieAwayFromZero(k: int)
    ensures k >= 0 ==> Round2(k as real / 100.0 + 0.005) == (k + 1) as real / 100.0
    ensures k <= 0 ==> Round2(k as real / 100.0 - 0.005) == (k - 1) as real / 100.0
  {
    if k >= 0 {
      var x := k as real / 100.0 + 0.005;
      assert x * 100.0 + 0.5 == (k + 1) as real;
      assert (x * 100.0 + 0.5).Floor == k + 1;
    }
    if k <= 0 {
      var x := k as real / 100.0 - 0.005;
      assert (-x) * 100.0 + 0.5 == (1 - k) as real;
      assert ((-x) * 100.0 + 0.5).Floor == 1 - k;
    }
  }

  /** Rounding never reverses the order of two amounts. */
  lemma Round2Monotone(x: real, y: real)
    requires x <= y
    ensures Round2(x) <= Round2(y)
  {
    if x >= 0.0 {
      assert (x * 100.0 + 0.5).Floor <= (y * 100.0 + 0.5).Floor;
    } else if y < 0.0 {
      assert ((-y) * 100.0 + 0.5).Floor <= ((-x) * 100.0 + 0.5).Floor;
    }
  }

  /** A value between two two-decimal bounds still lies between them once
      rounded. */
  lemma Round2Between(lo: real, x: real, hi: real)
    requires TwoDecimals(lo) && TwoDecimals(hi)
    requires lo <= x <= hi
    ensures lo <= Round2(x) <= hi
  {
    Round2Fixed(lo);
    Round2Fixed(hi);
    Round2Monotone(lo, x);
    Round2Monotone(x, hi);
  }

  /** `Math.ceil`: the least integer not below `x`. */
  function Ceil(x: real): (n: int)
    ensures x <= n as real < x + 1.0
  {
    -((-x).Floor)
  }

  /** `Math.max` of two numbers. */
  function Max(a: real, b: real): (r: real)
    ensures r >= a && r >= b
    ensures r == a || r == b
  {
    if a >= b then a else b
  }
}

=== FILE: stdio_server.dfy ===
/** Pure logic of the stdio tool server in src/index.js, with each data-store
    call replaced by the rows (or the error) it returns. */
module StdioServer {
  import opened Wrappers
  import opened Numbers
  import Kinematics
  import FareCalculator
  import opened ToolLogic

  /** What a data-store query returned: an error object, or `data`, which
      may be `null`. */
  datatype StoreReply<T> = StoreError(message: string) | StoreRows(data: Option<seq<T>>)

  /** A handler's reply: the success payload, or `{ success: false, error }`
      flagged `isError` after the catch-all. */
  datatype ToolReply<T> = Success(value: T) | ToolError(error: string)

  // ---------------------------------------------------------------------
  // buscar_conductores_disponibles
  // ---------------------------------------------------------------------

  /** The search payload, echoing the search area. */
  datatype SearchReply = SearchReply(total: int, conductores: seq<NearbyDriver>, centro: Point, radioKm: real)

  function BuscarConductores(t: Kinematics.Trig, latitud: real, longitud: real, radioKm: Option<real>,
                             store: StoreReply<Driver>): (r: ToolReply<SearchReply>)
    ensures store.StoreError? ==> r == ToolError(store.message)
    ensures store.StoreRows? ==>
      && r.Success?
      && r.value.total == |r.value.conductores|
      && r.value.centro == Point(latitud, longitud)
      && r.value.radioKm == radioKm.GetOr(DEFAULT_RADIUS_KM)
      && SortedByDistance(r.value.conductores)
      && ExactlyTheNearbyRows(t, latitud, longitud, r.value.radioKm, store.data.GetOr([]), r.value.conductores)
      && (forall x :: x in r.value.conductores ==> x.distanceKm <= r.value.radioKm)
      && (forall x :: x in r.value.conductores ==>
            x.driver in store.data.GetOr([]) && x.distanceKm == DistanceFrom(t, latitud, longitud, x.driver))
      && (forall d :: d in store.data.GetOr([]) && DistanceFrom(t, latitud, longitud, d) <= r.value.radioKm ==>
            NearbyDriver(d, DistanceFrom(t, latitud, longitud, d)) in r.value.conductores)
  {
    match store
    case StoreError(message) => ToolError(message)
    case StoreRows(data) =>
      var found := SearchDrivers(t, latitud, longitud, radioKm, data);
      assert found.drivers == NearbyDrivers(t, latitud, longitud, found.radiusKm, data);
      Success(SearchReply(found.total, found.drivers, Point(latitud, longitud), found.radiusKm))
  }

  // ---------------------------------------------------------------------
  // calcular_tarifa
  // ---------------------------------------------------------------------

  /** `tipo_servicio` when omitted. */
  const DEFAULT_SERVICE_TYPE: string := "el_pana"

  /** How the `tarifa` field serialises: a fare object, or `{}` (what
      `JSON.stringify` makes of a pending promise). */
  datatype SerialisedFare = EmptyObject | FareObject(fare: FareCalculator.FareResult)

  datatype QuoteReply = QuoteReply(tipoServicio: string, distanciaKm: real, duracionMin: real, tarifa: SerialisedFare)

  /** The options object the handler passes: only the currency. */
  function QuoteOptions(moneda: Option<string>): (opts: FareCalculator.FareOptions)
    ensures FareCalculator.WantsUsd(opts) <==> moneda == Some("USD")
    ensures FareCalculator.SurgeOf(opts) == 1.0 && FareCalculator.FuelFlagOf(opts)
  {
    FareCalculator.FareOptions(Some(moneda.GetOr("BS")), None, None)
  }

  /** The reply and the rate cache after it. */
  datatype Quoted = Quoted(reply: QuoteReply, cache: FareCalculator.RateCache)

  /** The handler as written: `calculate` is async and is not awaited, so
      `tarifa` is a pending promise and serialises as an empty object. The
      call still runs to completion after the reply, so a dollar quote
      still looks up the rate and may refresh the cache. */
  function CalcularTarifaAsWritten(cfg: FareCalculator.FareConfig, cache: FareCalculator.RateCache, now: int,
                                   fetch: FareCalculator.FetchOutcome, distanciaKm: real, duracionMin: Option<real>,
                                   tipoServicio: Option<string>, moneda: Option<string>): (r: Quoted)
    requires cfg.usdRate != 0.0
    ensures r.reply.tipoServicio == (if tipoServicio.Some? then tipoServicio.value else DEFAULT_SERVICE_TYPE)
    ensures r.reply.distanciaKm == distanciaKm
    ensures r.reply.duracionMin == TripDuration(duracionMin, distanciaKm)
    ensures r.reply.tarifa == EmptyObject
    ensures r.cache == FareCalculator.Calculate(cfg, cache, now, fetch, distanciaKm, r.reply.duracionMin, QuoteOptions(moneda)).cache
    ensures moneda != Some("USD") ==> r.cache == cache
  {
    var duracion := TripDuration(duracionMin, distanciaKm);
    var pending := FareCalculator.Calculate(cfg, cache, now, fetch, distanciaKm, duracion, QuoteOptions(moneda));
    Quoted(QuoteReply(tipoServicio.GetOr(DEFAULT_SERVICE_TYPE), distanciaKm, duracion, EmptyObject), pending.cache)
  }

  /** The handler with the calculation awaited: the priced fare is
      reported, and the rate cache is threaded through. */
  function CalcularTarifa(cfg: FareCalculator.FareConfig, cache: FareCalculator.RateCache, now: int,
                          fetch: FareCalculator.FetchOutcome, distanciaKm: real, duracionMin: Option<real>,
                          tipoServicio: Option<string>, moneda: Option<string>): (r: Quoted)
    requires cfg.usdRate != 0.0
    ensures r.reply.tipoServicio == (if tipoServicio.Some? then tipoServicio.value else DEFAULT_SERVICE_TYPE)
    ensures r.reply.distanciaKm == distanciaKm
    ensures r.reply.duracionMin == TripDuration(duracionMin, distanciaKm)
    ensures r.reply.tarifa.FareObject?
    ensures var priced := FareCalculator.Calculate(cfg, cache, now, fetch, distanciaKm, r.reply.duracionMin, QuoteOptions(moneda));
            r.reply.tarifa.fare == priced.fare && r.cache == priced.cache
    ensures TwoDecimals(r.reply.tarifa.fare.amountBs) && r.reply.tarifa.fare.amountBs >= cfg.minFare - 0.005
    ensures TwoDecimals(cfg.minFare) ==> r.reply.tarifa.fare.amountBs >= cfg.minFare
    ensures r.reply.tarifa.fare.currency == FareCalculator.USD <==> moneda == Some("USD")
    ensures moneda != Some("USD") ==> r.cache == cache
  {
    var duracion := TripDuration(duracionMin, distanciaKm);
    var priced := FareCalculator.Calculate(cfg, cache, now, fetch, distanciaKm, duracion, QuoteOptions(moneda));
    Quoted(QuoteReply(tipoServicio.GetOr(DEFAULT_SERVICE_TYPE), distanciaKm, duracion, FareObject(priced.fare)), priced.cache)
  }

  /** The two handlers agree on everything but the fare: the reply as
      written has lost it, whatever the request, while the rate cache ends
      up the same. */
  lemma UnawaitedFareIsLost(cfg: FareCalculator.FareConfig, cache: FareCalculator.RateCache, now: int,
                            fetch: FareCalculator.FetchOutcome, distanciaKm: real, duracionMin: Option<real>,
                            tipoServicio: Option<string>, moneda: Option<string>)
    requires cfg.usdRate != 0.0
    ensures var asWritten := CalcularTarifaAsWritten(cfg, cache, now, fetch, distanciaKm, duracionMin, tipoServicio, moneda);
            var awaited := CalcularTarifa(cfg, cache, now, fetch, distanciaKm, duracionMin, tipoServicio, moneda);
            && asWritten.reply == awaited.reply.(tarifa := EmptyObject)
            && asWritten.reply.tarifa != awaited.reply.tarifa
            && asWritten.cache == awaited.cache
  {
  }

  // ---------------------------------------------------------------------
  // obtener_estadisticas_conductor
  // ---------------------------------------------------------------------

  /** The `status` column. `OtherStatus` stands for any value other than
      'completed' and 'cancelled'; those two are always `Completed` and
      `Cancelled`. */
  datatype RideStatus = Completed | Cancelled | OtherStatus(name: string)

  /** A ride row; only the fields the statistics read. */
  datatype Ride = Ride(status: RideStatus, finalAmount: Option<real>, actualDistanceKm: Option<real>, rating: Option<real>)

  /** The rides with one status, in order. */
  function WithStatus(rides: seq<Ride>, s: RideStatus): (r: seq<Ride>)
    ensures |r| <= |rides|
    ensures forall i :: 0 <= i < |r| ==> r[i].status == s
    ensures forall x :: x in r ==> x in rides
    ensures |r| == CountWhere(rides, s)
    decreases |rides|
  {
    if rides == [] then []
    else (if rides[0].status == s then [rides[0]] else []) + WithStatus(rides[1..], s)
  }

  /** An independent single-pass count of the rides with status `s`. */
  function CountWhere(rides: seq<Ride>, s: RideStatus): nat
    decreases |rides|
  {
    if rides == [] then 0
    else (if rides[0].status == s then 1 else 0) + CountWhere(rides[1..], s)
  }

  /** A numeric column of a ride, read with `|| 0`. */
  datatype Column = FinalAmount | ActualDistance | Rating

  function ValueOf(ride: Ride, c: Column): real {
    match c
    case FinalAmount => OrZero(ride.finalAmount)
    case ActualDistance => OrZero(ride.actualDistanceKm)
    case Rating => OrZero(ride.rating)
  }

  /** `rides.reduce((sum, v) => sum + (v.column || 0), 0)`. */
  function Sum(rides: seq<Ride>, c: Column): real
    decreases |rides|
  {
    if rides == [] then 0.0 else ValueOf(rides[0], c) + Sum(rides[1..], c)
  }

  /** An independent single-pass reading: the column summed over the rides
      that have status `s`, skipping the others in place. */
  function SumWhere(rides: seq<Ride>, s: RideStatus, c: Column): real
    decreases |rides|
  {
    if rides == [] then 0.0
    else (if rides[0].status == s then ValueOf(rides[0], c) else 0.0) + SumWhere(rides[1..], s, c)
  }

  /** The `estadisticas` payload. */
  datatype DriverStatistics = DriverStatistics(
    periodo: string,
    totalViajes: int,
    viajesCompletados: int,
    viajesCancelados: int,
    gananciaTotalBs: real,
    distanciaTotalKm: real,
    calificacionPromedio: real,
    tasaCancelacion: real)

  /** Every ride is completed or cancelled, as the query's status filter
      ensures. */
  predicate Settled(rides: seq<Ride>) {
    forall i :: 0 <= i < |rides| ==> rides[i].status == Completed || rides[i].status == Cancelled
  }

  /** The aggregation over the rows the query returned. */
  function Statistics(periodo: string, rides: seq<Ride>): (r: DriverStatistics)
    ensures r.periodo == periodo
    ensures r.totalViajes == |rides|
    ensures r.viajesCompletados == CountWhere(rides, Completed)
    ensures r.viajesCancelados == CountWhere(rides, Cancelled)
    ensures r.viajesCompletados + r.viajesCancelados <= r.totalViajes
    ensures Settled(rides) ==> r.viajesCompletados + r.viajesCancelados == r.totalViajes
    ensures r.gananciaTotalBs == Round2(SumWhere(rides, Completed, FinalAmount))
    ensures r.distanciaTotalKm == Round2(SumWhere(rides, Completed, ActualDistance))
    ensures r.viajesCompletados == 0 ==> r.calificacionPromedio == 0.0
    ensures r.viajesCompletados > 0 ==>
      r.calificacionPromedio == Round2(SumWhere(rides, Completed, Rating) / r.viajesCompletados as real)
    ensures r.totalViajes == 0 ==> r.tasaCancelacion == 0.0
    ensures r.totalViajes > 0 ==>
      r.tasaCancelacion == Round2(CountWhere(rides, Cancelled) as real / |rides| as real * 100.0)
    ensures TwoDecimals(r.tasaCancelacion) && 0.0 <= r.tasaCancelacion <= 100.0
  {
    var completados := WithStatus(rides, Completed);
    var cancelados := WithStatus(rides, Cancelled);
    var gananciaTotal := Sum(completados, FinalAmount);
    var distanciaTotal := Sum(completados, ActualDistance);
    var calificacionPromedio := MeanRating(completados);
    var tasa :=
      if |rides| > 0 then CancellationRate(|cancelados|, |rides|) else 0.0;
    FilteredSumIsSumWhere(rides, Completed, FinalAmount);
    FilteredSumIsSumWhere(rides, Completed, ActualDistance);
    FilteredSumIsSumWhere(rides, Completed, Rating);
    CountsPartitionRides(rides);
    CentsHaveTwoDecimals(0);
    DriverStatistics(periodo, |rides|, |completados|, |cancelados|,
      Round2(gananciaTotal), Round2(distanciaTotal), Round2(calificacionPromedio), tasa)
  }

  /** `periodo` when the caller omits it. */
  const DEFAULT_PERIOD: string := "today"

  /** The message of the TypeError raised by filtering a `null` row set. */
  const NULL_RIDES_ERROR: string := "Cannot read properties of null (reading 'filter')"

  /** The handler: a store error becomes the error reply, a `null` row set
      fails on its first `.filter`, and any rows are aggregated under the
      requested period, 'today' by default. */
  function ObtenerEstadisticas(periodo: Option<string>, store: StoreReply<Ride>): (r: ToolReply<DriverStatistics>)
    ensures store.StoreError? ==> r == ToolError(store.message)
    ensures store.StoreRows? && store.data.None? ==> r == ToolError(NULL_RIDES_ERROR)
    ensures store.StoreRows? && store.data.Some? ==>
      && r.Success?
      && r.value.periodo == (if periodo.Some? then periodo.value else DEFAULT_PERIOD)
      && r.value == Statistics(r.value.periodo, store.data.value)
  {
    match store
    case StoreError(message) => ToolError(message)
    case StoreRows(data) =>
      if data.None? then ToolError(NULL_RIDES_ERROR)
      else Success(Statistics(periodo.GetOr(DEFAULT_PERIOD), data.value))
  }

  /** The average rating of the completed rides (a missing rating counts
      as 0), or 0 when there are none. */
  function MeanRating(completados: seq<Ride>): (mean: real)
    ensures |completados| == 0 ==> mean == 0.0
    ensures |completados| > 0 ==> mean * |completados| as real == Sum(completados, Rating)
  {
    if |completados| > 0 then Sum(completados, Rating) / |completados| as real else 0.0
  }

  /** `parseFloat(((cancelados / total) * 100).toFixed(2))`: a percentage
      between 0 and 100 with two decimals. */
  function CancellationRate(cancelled: nat, total: nat): (pct: real)
    requires 0 < total && cancelled <= total
    ensures TwoDecimals(pct) && 0.0 <= pct <= 100.0
    ensures cancelled == 0 ==> pct == 0.0
    ensures cancelled == total ==> pct == 100.0
    ensures -0.005 <= pct - cancelled as real / total as real * 100.0 <= 0.005
  {
    var ratio := cancelled as real / total as real;
    assert 0.0 <= ratio <= 1.0;
    CentsHaveTwoDecimals(0);
    CentsHaveTwoDecimals(10000);
    Round2Between(0.0, ratio * 100.0, 100.0);
    Round2Fixed(100.0);
    RatioOfEqualCounts(cancelled, total);
    Round2(ratio * 100.0)
  }

  lemma RatioOfEqualCounts(a: nat, b: nat)
    requires b > 0
    ensures a == b ==> a as real / b as real * 100.0 == 100.0
  {
    if a == b {
      assert a as real / b as real == 1.0;
    }
  }

  /** Filtering then summing adds up the same values as summing in place. */
  lemma {:induction false} FilteredSumIsSumWhere(rides: seq<Ride>, s: RideStatus, c: Column)
    ensures Sum(WithStatus(rides, s), c) == SumWhere(rides, s, c)
    decreases |rides|
  {
    if rides != [] {
      FilteredSumIsSumWhere(rides[1..], s, c);
      var rest := WithStatus(rides[1..], s);
      if rides[0].status == s {
        assert WithStatus(rides, s) == [rides[0]] + rest;
        assert ([rides[0]] + rest)[1..] == rest;
      } else {
        assert WithStatus(rides, s) == rest;
      }
    }
  }

  /** The filter keeps every ride with the status, as often as it occurs,
      and no other ride. */
  lemma {:induction false} WithStatusMultiset(rides: seq<Ride>, s: RideStatus)
    ensures forall x :: multiset(WithStatus(rides, s))[x] == (if x.status == s then multiset(rides)[x] else 0)
    decreases |rides|
  {
    if rides != [] {
      WithStatusMultiset(rides[1..], s);
      assert rides == [rides[0]] + rides[1..];
    }
  }

  /** Completed, cancelled and other rides partition the rows; with only
      the first two kinds the counts add up to the total. */
  lemma {:induction false} CountsPartitionRides(rides: seq<Ride>)
    ensures |WithStatus(rides, Completed)| + |WithStatus(rides, Cancelled)| <= |rides|
    ensures Settled(rides) ==> |WithStatus(rides, Completed)| + |WithStatus(rides, Cancelled)| == |rides|
    decreases |rides|
  {
    if rides != [] {
      CountsPartitionRides(rides[1..]);
      assert Settled(rides) ==> Settled(rides[1..]) by {
        if Settled(rides) {
          forall i | 0 <= i < |rides[1..]|
            ensures rides[1..][i].status == Completed || rides[1..][i].status == Cancelled
          {
            assert rides[1..][i] == rides[i + 1];
          }
        }
      }
      assert Settled(rides) ==> rides[0].status == Completed || rides[0].status == Cancelled;
    }
  }

  /** A cancelled ride adds to neither earnings nor distance. */
  lemma CancelledRideEarnsNothing(periodo: string, rides: seq<Ride>, cancelled: Ride)
    requires cancelled.status == Cancelled
    ensures var before := Statistics(periodo, rides);
            var after := Statistics(periodo, rides + [cancelled]);
            after.gananciaTotalBs == before.gananciaTotalBs
            && after.distanciaTotalKm == before.distanciaTotalKm
            && after.viajesCancelados == before.viajesCancelados + 1
  {
    SumWhereAppendOther(rides, cancelled, Completed, FinalAmount);
    SumWhereAppendOther(rides, cancelled, Completed, ActualDistance);
    CancelledCountGrows(rides, cancelled);
  }

  lemma {:induction false} SumWhereAppendOther(rides: seq<Ride>, extra: Ride, s: RideStatus, c: Column)
    requires extra.status != s
    ensures SumWhere(rides + [extra], s, c) == SumWhere(rides, s, c)
    decreases |rides|
  {
    if rides == [] {
      assert [] + [extra] == [extra];
      assert [extra][1..] == [];
    } else {
      assert (rides + [extra])[1..] == rides[1..] + [extra];
      SumWhereAppendOther(rides[1..], extra, s, c);
    }
  }

  lemma {:induction false} CancelledCountGrows(rides: seq<Ride>, extra: Ride)
    requires extra.status == Cancelled
    ensures |WithStatus(rides + [extra], Cancelled)| == |WithStatus(rides, Cancelled)| + 1
    decreases |rides|
  {
    if rides == [] {
      assert [] + [extra] == [extra];
      assert [extra][1..] == [];
    } else {
      assert (rides + [extra])[1..] == rides[1..] + [extra];
      CancelledCountGrows(rides[1..], extra);
    }
  }

  /** With every completed ride rated between two two-decimal bounds, the
      reported average lies between them. */
  lemma AverageRatingWithinScale(periodo: string, rides: seq<Ride>, lo: real, hi: real)
    requires TwoDecimals(lo) && TwoDecimals(hi) && lo <= hi
    requires forall x :: x in rides && x.status == Completed ==> x.rating.Some? && lo <= x.rating.value <= hi
    requires exists i :: 0 <= i < |rides| && rides[i].status == Completed
    ensures lo <= Statistics(periodo, rides).calificacionPromedio <= hi
  {
    var completados := WithStatus(rides, Completed);
    forall i | 0 <= i < |completados|
      ensures completados[i].rating.Some? && lo <= completados[i].rating.value <= hi
    {
      assert completados[i] in rides;
    }
    HasCompleted(rides);
    RoundedMeanWithin(completados, lo, hi);
  }

  /** The rounded mean of a non-empty list of ratings within two-decimal
      bounds stays within them. */
  lemma RoundedMeanWithin(completados: seq<Ride>, lo: real, hi: real)
    requires TwoDecimals(lo) && TwoDecimals(hi) && lo <= hi && |completados| > 0
    requires forall i :: 0 <= i < |completados| ==> completados[i].rating.Some? && lo <= completados[i].rating.value <= hi
    ensures lo <= Round2(MeanRating(completados)) <= hi
  {
    RatingSumWithin(completados, lo, hi);
    MeanWithin(Sum(completados, Rating), |completados| as real, lo, hi);
    Round2Between(lo, MeanRating(completados), hi);
  }

  /** A total of n values within [lo, hi], divided by n, is within [lo, hi]. */
  lemma MeanWithin(total: real, n: real, lo: real, hi: real)
    requires n > 0.0 && n * lo <= total <= n * hi
    ensures lo <= total / n <= hi
  {
    var m := total / n;
    assert n * (m - lo) == total - n * lo;
    assert n * (hi - m) == n * hi - total;
  }

  /** n ratings within [lo, hi] sum to between n * lo and n * hi. */
  lemma {:induction false} RatingSumWithin(xs: seq<Ride>, lo: real, hi: real)
    requires forall i :: 0 <= i < |xs| ==> xs[i].rating.Some? && lo <= xs[i].rating.value <= hi
    ensures |xs| as real * lo <= Sum(xs, Rating) <= |xs| as real * hi
    decreases |xs|
  {
    if xs != [] {
      RatingSumWithin(xs[1..], lo, hi) by {
        forall i | 0 <= i < |xs[1..]|
          ensures xs[1..][i].rating.Some? && lo <= xs[1..][i].rating.value <= hi
        {
          assert xs[1..][i] == xs[i + 1];
        }
      }
      var k := |xs[1..]| as real;
      assert |xs| as real == k + 1.0;
      assert (k + 1.0) * lo == k * lo + lo;
      assert (k + 1.0) * hi == k * hi + hi;
    }
  }

  lemma {:induction false} HasCompleted(rides: seq<Ride>)
    requires exists i :: 0 <= i < |rides| && rides[i].status == Completed
    ensures |WithStatus(rides, Completed)| > 0
    decreases |rides|
  {
    if rides[0].status != Completed {
      var i :| 0 <= i < |rides| && rides[i].status == Completed;
      assert rides[1..][i - 1] == rides[i];
      HasCompleted(rides[1..]);
    }
  }

  // ---------------------------------------------------------------------
  // calcular_distancia
  // ---------------------------------------------------------------------

  /** The distance payload, echoing both points. */
  datatype DistanceReply = DistanceReply(distanciaKm: real, duracionEstimadaMin: int, origen: Point, destino: Point)

  /** Unlike the HTTP endpoint, this handler calls src/utils/distance.js and
      echoes the two points. A missing point raises the TypeError of reading
      its `latitud`, which becomes the error reply. */
  function CalcularDistancia(t: Kinematics.Trig, origen: Option<Point>, destino: Option<Point>): (r: ToolReply<DistanceReply>)
    ensures r.ToolError? <==> origen.None? || destino.None?
    ensures r.ToolError? ==> r.error == MISSING_POINT_ERROR
    ensures r.Success? ==>
      && r.value.origen == origen.value && r.value.destino == destino.value
      && r.value.distanciaKm == Kinematics.Distance(t, origen.value.latitud, origen.value.longitud,
                                                    destino.value.latitud, destino.value.longitud)
      && TwoDecimals(r.value.distanciaKm)
      && 3.0 * r.value.distanciaKm <= r.value.duracionEstimadaMin as real < 3.0 * r.value.distanciaKm + 1.0
  {
    if origen.None? || destino.None? then ToolError(MISSING_POINT_ERROR)
    else
      var o, d := origen.value, destino.value;
      var distancia := Kinematics.Distance(t, o.latitud, o.longitud, d.latitud, d.longitud);
      Success(DistanceReply(distancia, Kinematics.Eta(distancia), o, d))
  }

  /** With an odd `sin`, swapping the two points changes only the echo:
      distance and ETA stay the same. */
  lemma DistanciaSymmetric(t: Kinematics.Trig, origen: Point, destino: Point)
    requires Kinematics.SinOdd(t)
    ensures var there := CalcularDistancia(t, Some(origen), Some(destino));
            var back := CalcularDistancia(t, Some(destino), Some(origen));
            && there.Success? && back.Success?
            && there.value.distanciaKm == back.value.distanciaKm
            && there.value.duracionEstimadaMin == back.value.duracionEstimadaMin
            && back.value.origen == destino && back.value.destino == origen
  {
    Kinematics.DistanceSymmetric(t, origen.latitud, origen.longitud, destino.latitud, destino.longitud);
  }
}

=== FILE: tool_logic.dfy ===
/** Handler logic both tool servers share once the data-store call is
    removed: the driver proximity search and the trip-duration default. */
module ToolLogic {
  import opened Wrappers
  import opened Numbers
  import Kinematics

  /** A driver row as the store returns it; only the position matters to
      the search, the rest of the row is carried through untouched. Either
      coordinate column may be `null`. */
  datatype Driver = Driver(id: string, lat: Option<real>, lng: Option<real>)

  /** `{ ...conductor, distancia_km }`: a row annotated with its distance
      from the search centre. */
  datatype NearbyDriver = NearbyDriver(driver: Driver, distanceKm: real)

  /** A position as the tools receive and echo it. */
  datatype Point = Point(latitud: real, longitud: real)

  /** The message of the TypeError raised by reading a field of a missing
      point. */
  const MISSING_POINT_ERROR: string := "Cannot read properties of undefined (reading 'latitud')"

  /** `radio_km` when the caller omits it. */
  const DEFAULT_RADIUS_KM: real := 5.0

  /** The distance of a driver from the search centre. A `null` coordinate
      reads as 0 in both the subtraction and `toRad`. */
  function DistanceFrom(t: Kinematics.Trig, lat: real, lng: real, d: Driver): (km: real)
    ensures TwoDecimals(km)
    ensures d.lat.Some? && d.lng.Some? ==> km == Kinematics.Distance(t, lat, lng, d.lat.value, d.lng.value)
    ensures d.lat.None? ==> km == Kinematics.Distance(t, lat, lng, 0.0, OrZero(d.lng))
    ensures d.lng.None? ==> km == Kinematics.Distance(t, lat, lng, OrZero(d.lat), 0.0)
  {
    Kinematics.Distance(t, lat, lng, OrZero(d.lat), OrZero(d.lng))
  }

  /** A driver without a position is measured as if it stood at 0°N 0°E,
      and so is listed whenever that point is within the radius. */
  lemma UnplacedDriverAtNullIsland(t: Kinematics.Trig, lat: real, lng: real, radius: real, id: string, rows: Option<seq<Driver>>)
    requires Driver(id, None, None) in rows.GetOr([])
    requires Kinematics.Distance(t, lat, lng, 0.0, 0.0) <= radius
    ensures NearbyDriver(Driver(id, None, None), Kinematics.Distance(t, lat, lng, 0.0, 0.0)) in NearbyDrivers(t, lat, lng, radius, rows)
  {
    assert DistanceFrom(t, lat, lng, Driver(id, None, None)) == Kinematics.Distance(t, lat, lng, 0.0, 0.0);
  }

  /** An entry that is some row at its true distance from the centre. */
  predicate AtOwnDistance(t: Kinematics.Trig, lat: real, lng: real, x: NearbyDriver) {
    x.distanceKm == DistanceFrom(t, lat, lng, x.driver)
  }

  /** The `.map` step: each row with its distance, in store order. */
  function Annotate(t: Kinematics.Trig, lat: real, lng: real, rows: seq<Driver>): (r: seq<NearbyDriver>)
    ensures |r| == |rows|
    ensures forall i :: 0 <= i < |r| ==> r[i] == NearbyDriver(rows[i], DistanceFrom(t, lat, lng, rows[i]))
    decreases |rows|
  {
    if rows == [] then []
    else [NearbyDriver(rows[0], DistanceFrom(t, lat, lng, rows[0]))] + Annotate(t, lat, lng, rows[1..])
  }

  /** Annotating adds one entry per row occurrence: an entry occurs as often
      as its driver occurs among the rows when it carries that driver's true
      distance, and never otherwise. */
  lemma AnnotateMultiset(t: Kinematics.Trig, lat: real, lng: real, rows: seq<Driver>)
    ensures forall x :: multiset(Annotate(t, lat, lng, rows))[x] ==
                        (if AtOwnDistance(t, lat, lng, x) then multiset(rows)[x.driver] else 0)
  {
    LabelledMultiset(rows, Annotate(t, lat, lng, rows), d => DistanceFrom(t, lat, lng, d));
  }

  /** The same fact for any way of labelling rows with a distance. */
  lemma {:induction false} LabelledMultiset(rows: seq<Driver>, labelled: seq<NearbyDriver>, dist: Driver -> real)
    requires |labelled| == |rows|
    requires forall i :: 0 <= i < |rows| ==> labelled[i] == NearbyDriver(rows[i], dist(rows[i]))
    ensures forall x :: multiset(labelled)[x] == (if x.distanceKm == dist(x.driver) then multiset(rows)[x.driver] else 0)
    decreases |rows|
  {
    if rows != [] {
      var rest := rows[1..];
      LabelledMultiset(rest, labelled[1..], dist);
      var head := NearbyDriver(rows[0], dist(rows[0]));
      assert rows == [rows[0]] + rest;
      assert labelled == [head] + labelled[1..];
      forall x ensures multiset(labelled)[x] == (if x.distanceKm == dist(x.driver) then multiset(rows)[x.driver] else 0) {
        if x == head {
          assert x.distanceKm == dist(x.driver);
        }
      }
    }
  }

  /** The `.filter` step: keeps exactly the rows within the radius, each as
      often as it occurs, in their original order. */
  function WithinRadius(xs: seq<NearbyDriver>, radius: real): (r: seq<NearbyDriver>)
    ensures forall i :: 0 <= i < |r| ==> r[i].distanceKm <= radius
    ensures forall x :: multiset(r)[x] == if x.distanceKm <= radius then multiset(xs)[x] else 0
    decreases |xs|
  {
    if xs == [] then []
    else
      assert xs == [xs[0]] + xs[1..];
      (if xs[0].distanceKm <= radius then [xs[0]] else []) + WithinRadius(xs[1..], radius)
  }

  /** Ordered by non-decreasing distance. */
  ghost predicate SortedByDistance(s: seq<NearbyDriver>) {
    forall i, j :: 0 <= i < j < |s| ==> s[i].distanceKm <= s[j].distanceKm
  }

  /** Places `x` before the first element at least as far away, so that it
      stays ahead of equally distant elements that followed it. */
  function Insert(x: NearbyDriver, s: seq<NearbyDriver>): (r: seq<NearbyDriver>)
    requires SortedByDistance(s)
    ensures SortedByDistance(r)
    ensures multiset(r) == multiset(s) + multiset{x}
    decreases |s|
  {
    if s == [] || x.distanceKm <= s[0].distanceKm then [x] + s
    else
      assert s == [s[0]] + s[1..];
      var rest := Insert(x, s[1..]);
      BoundedByHead(s, x, rest);
      PrependSorted(s[0], rest);
      [s[0]] + rest
  }

  /** Everything the recursive insertion returns is at least as far away as
      the head it is placed behind. */
  lemma BoundedByHead(s: seq<NearbyDriver>, x: NearbyDriver, rest: seq<NearbyDriver>)
    requires SortedByDistance(s) && s != [] && s[0].distanceKm < x.distanceKm
    requires multiset(rest) == multiset(s[1..]) + multiset{x}
    ensures forall y :: y in rest ==> s[0].distanceKm <= y.distanceKm
  {
    forall y | y in rest ensures s[0].distanceKm <= y.distanceKm {
      assert y in multiset(rest);
      if y != x {
        assert y in multiset(s[1..]);
        var j :| 0 <= j < |s[1..]| && s[1..][j] == y;
        assert s[j + 1] == y;
      }
    }
  }

  /** A head no farther than any element of a sorted tail keeps it sorted. */
  lemma PrependSorted(h: NearbyDriver, t: seq<NearbyDriver>)
    requires SortedByDistance(t)
    requires forall y :: y in t ==> h.distanceKm <= y.distanceKm
    ensures SortedByDistance([h] + t)
  {
    var r := [h] + t;
    forall i, j | 0 <= i < j < |r| ensures r[i].distanceKm <= r[j].distanceKm {
      assert r[j] == t[j - 1];
      if i > 0 {
        assert r[i] == t[i - 1];
      } else {
        assert r[j] in t;
      }
    }
  }

  /** The `.sort((a, b) => a.distancia_km - b.distancia_km)` step, as an
      insertion sort. */
  function SortByDistance(xs: seq<NearbyDriver>): (r: seq<NearbyDriver>)
    ensures SortedByDistance(r)
    ensures multiset(r) == multiset(xs)
    decreases |xs|
  {
    if xs == [] then []
    else
      assert xs == [xs[0]] + xs[1..];
      Insert(xs[0], SortByDistance(xs[1..]))
  }

  /** An entry of the search occurs exactly as often as its driver occurs
      among the rows, when it carries that driver's true distance and that
      distance is within the radius; no other entry occurs. */
  ghost predicate ExactlyTheNearbyRows(t: Kinematics.Trig, lat: real, lng: real, radius: real,
                                       rows: seq<Driver>, r: seq<NearbyDriver>) {
    forall x :: multiset(r)[x] ==
      if AtOwnDistance(t, lat, lng, x) && x.distanceKm <= radius then multiset(rows)[x.driver] else 0
  }

  /** `buscar_conductores_disponibles` after the store query: the rows
      (`null` reads as none) annotated, kept when within `radius`, and
      sorted by distance. */
  function NearbyDrivers(t: Kinematics.Trig, lat: real, lng: real, radius: real, rows: Option<seq<Driver>>): (r: seq<NearbyDriver>)
    ensures SortedByDistance(r)
    ensures ExactlyTheNearbyRows(t, lat, lng, radius, rows.GetOr([]), r)
    ensures forall x :: x in r ==> x.distanceKm <= radius
    ensures forall x :: x in r ==> x.driver in rows.GetOr([]) && x.distanceKm == DistanceFrom(t, lat, lng, x.driver)
    ensures forall d :: d in rows.GetOr([]) && DistanceFrom(t, lat, lng, d) <= radius ==>
      NearbyDriver(d, DistanceFrom(t, lat, lng, d)) in r
  {
    var all := Annotate(t, lat, lng, rows.GetOr([]));
    AnnotateMultiset(t, lat, lng, rows.GetOr([]));
    var r := SortByDistance(WithinRadius(all, radius));
    NearbyMembership(t, lat, lng, radius, rows.GetOr([]), r);
    r
  }

  /** Membership read off the multiset characterisation: every entry is an
      in-radius row at its true distance, and every in-radius row is there. */
  lemma NearbyMembership(t: Kinematics.Trig, lat: real, lng: real, radius: real, rows: seq<Driver>, r: seq<NearbyDriver>)
    requires ExactlyTheNearbyRows(t, lat, lng, radius, rows, r)
    ensures forall x :: x in r ==> x.distanceKm <= radius
    ensures forall x :: x in r ==> x.driver in rows && x.distanceKm == DistanceFrom(t, lat, lng, x.driver)
    ensures forall d :: d in rows && DistanceFrom(t, lat, lng, d) <= radius ==>
      NearbyDriver(d, DistanceFrom(t, lat, lng, d)) in r
  {
    forall x | x in r ensures x.distanceKm <= radius && x.driver in rows && AtOwnDistance(t, lat, lng, x) {
      assert multiset(r)[x] > 0;
      assert multiset(rows)[x.driver] > 0;
    }
    forall d | d in rows && DistanceFrom(t, lat, lng, d) <= radius
      ensures NearbyDriver(d, DistanceFrom(t, lat, lng, d)) in r
    {
      var x := NearbyDriver(d, DistanceFrom(t, lat, lng, d));
      assert AtOwnDistance(t, lat, lng, x);
      assert multiset(rows)[d] > 0;
      assert multiset(r)[x] > 0;
    }
  }

  /** The search result the handlers serialise. */
  datatype SearchResult = SearchResult(total: int, drivers: seq<NearbyDriver>, radiusKm: real)

  /** The search with `radio_km` defaulted to 5 when omitted. */
  function SearchDrivers(t: Kinematics.Trig, lat: real, lng: real, radiusKm: Option<real>, rows: Option<seq<Driver>>): (r: SearchResult)
    ensures r.total == |r.drivers|
    ensures r.radiusKm == (if radiusKm.Some? then radiusKm.value else DEFAULT_RADIUS_KM)
    ensures SortedByDistance(r.drivers)
    ensures ExactlyTheNearbyRows(t, lat, lng, r.radiusKm, rows.GetOr([]), r.drivers)
    ensures r.drivers == NearbyDrivers(t, lat, lng, r.radiusKm, rows)
  {
    var radius := radiusKm.GetOr(DEFAULT_RADIUS_KM);
    var found := NearbyDrivers(t, lat, lng, radius, rows);
    SearchResult(|found|, found, radius)
  }

  /** `duracion_min || calculateETA(distancia_km)`: the given duration when
      truthy, otherwise the estimate, which covers three minutes per km and
      rounds up to a whole minute. */
  function TripDuration(duracionMin: Option<real>, distanciaKm: real): (minutes: real)
    ensures Truthy(duracionMin) ==> minutes == duracionMin.value
    ensures !Truthy(duracionMin) ==> minutes == Kinematics.Eta(distanciaKm) as real
    ensures !Truthy(duracionMin) ==> 3.0 * distanciaKm <= minutes < 3.0 * distanciaKm + 1.0
  {
    Or(duracionMin, Kinematics.Eta(distanciaKm) as real)
  }

  /** An explicit zero duration counts as missing and is replaced by the
      estimate. */
  lemma ZeroDurationUsesEstimate(distanciaKm: real)
    ensures TripDuration(Some(0.0), distanciaKm) == Kinematics.Eta(distanciaKm) as real
  {
  }
}

=== FILE: wrappers.dfy ===
/** The optional values of the model: a JavaScript property that may be
    `undefined` (or a `parseFloat` that gave `NaN`) is `None`. */
module Wrappers {

  datatype Option<+T> = None | Some(value: T) {

    /** The wrapped value, or `default` when there is none. */
    function GetOr(default: T): (r: T)
      ensures Some? ==> r == value
      ensures None? ==> r == default
    {
      match this
      case Some(v) => v
      case None => default
    }
  }
}
